=== FILE: README.md ===
# life-dashboard import pipeline, modelled in Dafny

This project models the file-import path of the life-dashboard app. Exported
CSV text goes through `CSVParser` and becomes records keyed by header. One of
the source-specific mappers turns each record into a canonical `{table, data}`
record:

- PG&E energy
- Tesla energy
- SFCU bank history
- Withings health
- Google location history

`DataImporter.import` then picks the importer and maps every row. It
reconciles each mapped record into the store: it looks the record up by its
identity key and updates the row it finds, or inserts a new one. Finally it
tallies the outcome.

Everything is pure. The store is an immutable map from table name to rows. The
import loop is a fold that threads the store and the counters through the rows.

Files:

- `wrappers.dfy`: `Option`.
- `strings.dfy`: a parsed record (`Row`, a map from column name to cell) and
  the string primitives the pipeline uses: `split`, `join`,
  `indexOf`, `trim` with the ECMAScript white-space set, `replace` of one
  character, and decimal printing.
- `csv.dfy`: `CSVParser`. It covers line-ending normalisation, splitting into
  lines, and the `parseLine` quote state machine. It also covers the blank-line
  filter, the header zip (duplicate headers: the last one wins; short rows),
  and the `headers`/`delimiter` options.
- `values.dfy`: JavaScript values as mapped records hold them (`undefined`,
  `null`, `NaN`, numbers, strings) and the `||` fallbacks. It also defines the
  `Host` record of engine primitives.
- `withings.dfy`, `pge.dfy`, `sfcu.dfy`, `tesla.dfy`, `google_timeline.dfy`:
  one module per importer class, with `detect`, `getTable` and `mapRow`. The
  Google module also has `extractItems`.
- `store.dfy`: what the reconciler can observe of the SQL store through
  `dbService.query`.
- `reconciler.dfy`: `findExisting`, `update`, `insert`, and the
  update-or-insert step.
- `importer.dfy`: `DataImporter.import`. It strips the PG&E preamble, parses,
  selects the importer (override or detection), runs the row loop and builds
  the result message.
- `import_properties.dfy`: what an import does to the store and what a second
  import of the same file does.

Properties proved, beyond each operation's own contract:

- `parseLine` inverts RFC 4180-style quoting: encode fields, then parse, gives
  the fields back.
- On lines without quotes, `parseLine` is `split`, and joining gives the line
  back.
- Normalising line endings is one left-to-right pass.
- A record's keys are exactly the trimmed headers that have a cell. When a
  header repeats, its last column wins.
- Importing the same file twice reports the same result and adds no row: every
  time-keyed record the first import reconciled has its time stored, so the
  second import updates instead of inserting.
- A Tesla import stores the time of every reading it maps.
- Only the `electricity` table is ever written. PG&E records name tables
  (`electricity_grid_hourly`, `gas_daily`) that `findExisting` and `insert` do
  not handle. SFCU records carry `timestamp`, but the reconciler binds
  `data.date`, and binding `undefined` makes the statement fail. So PG&E and
  SFCU imports count their rows as processed and leave the store exactly as it
  was.

Behaviour worth knowing:

- The coordinator has no JSON branch and no database transaction.
- Withings and Google Timeline are not registered with the coordinator.
- Timestamps can be `NaN`.
- The identity keys are `time` and (`date`, `description`, `amount`), not
  `timestamp`.
- The PG&E and Withings test files expect fields and tables the mappers never
  emit. The model follows the mappers.

Store semantics carried over from `src/db.js` and sql.js:

- `query` catches every execution error and returns `[]`. A statement against
  a missing table, or one binding `undefined`, therefore reads as "no rows" and
  changes nothing.
- `NaN` is bound as SQL `NULL`, and `column = NULL` never holds.
- A new row gets id 1 in an empty table, and otherwise exactly one more than
  the largest id.

## Model

| member | source | states |
|---|---|---|
| Strings.Split | src/utils/csv-parser.js:57 | `split(sep)` yields one more piece than there are separators, and no piece contains the separator |
| Strings.JoinSplit | src/utils/csv-parser.js:57 | joining the pieces of `split` with the same separator gives the text back |
| Strings.SplitJoin | src/utils/csv-parser.js:57 | splitting a join of separator-free pieces gives the pieces back |
| Strings.IndexOf | src/services/data-importer.js:22-23 | `indexOf` is -1 exactly when the pattern does not occur; otherwise it is the first position where it occurs |
| Strings.Trim | src/utils/csv-parser.js:38 | `trim` removes exactly a white-space prefix and a white-space suffix: the result is a contiguous piece of the input with only white space before and after it, that neither starts nor ends with white space; an already-trimmed string is unchanged |
| Strings.Remove | src/importers/location/google-timeline.js:44 | deleting every occurrence of a character leaves none and shortens the string by exactly the number of occurrences; a single other character is kept, the character itself is dropped |
| Strings.RemoveAppend | src/importers/location/google-timeline.js:44 | deleting distributes over concatenation, so with the single-character case the result is the kept characters in their original order |
| Strings.NatToString | src/services/data-importer.js:97 | a count prints as decimal digits whose value is the count, with no leading zero |
| Csv.Normalize | src/utils/csv-parser.js:13 | after normalising there is no carriage return left, and text without one is untouched |
| Csv.NormalizeIsOnePass | src/utils/csv-parser.js:13 | the two chained replacements equal one pass mapping CRLF and lone CR each to one LF |
| Csv.Lines | src/utils/csv-parser.js:50-58 | there is always at least one line, no line holds a line break, and joining the lines with LF gives back the normalised text |
| Csv.Scan | src/utils/csv-parser.js:65-90 | the quote state machine emits one field per delimiter met outside quotes plus one, and keeps the fields already emitted |
| Csv.ParseLine | src/utils/csv-parser.js:65-90 | a line yields at least one field: one more than the delimiters outside quotes |
| Csv.ParseLineUnquoted | src/utils/csv-parser.js:65-90 | on a line without quotes, parsing is `split` on the delimiter, and joining the fields rebuilds the line |
| Csv.QuotedRoundTrip | src/utils/csv-parser.js:73-80 | quoting every field (doubling inner quotes) and parsing gives back exactly the original fields, delimiters and quotes included |
| Csv.MixedLine | src/utils/csv-parser.js:65-90 | a quoted middle field between two plain fields parses to the three fields, with the quoted one unescaped |
| Csv.QuotingExample | src/utils/csv-parser.js:73-86 | `a,"b,c""d",e` parses to `a`, `b,c"d` and `e` |
| Csv.BlankLines | src/utils/csv-parser.js:21 | a parsed line is dropped exactly when it is the single empty field; an empty line always is |
| Csv.NonBlank | src/utils/csv-parser.js:21 | the filter keeps exactly the non-blank parsed lines; a single line is kept or dropped by the blank test |
| Csv.NonBlankAppend | src/utils/csv-parser.js:21 | the filter distributes over concatenation, so kept lines stay in their original order |
| Csv.ParsedLines | src/utils/csv-parser.js:18 | one field array per line, each the parse of the line at the same position |
| Csv.Surviving | src/utils/csv-parser.js:13-21 | the surviving field arrays are the non-blank filter of the parsed lines, in line order; as a set, exactly the non-blank parses of the normalised lines |
| Csv.NonBlankHead | src/utils/csv-parser.js:21 | the first kept line is a line the filter accepts, and every line before it is blank |
| Csv.SurvivingHeader | src/utils/csv-parser.js:18-29 | the header is the parse of the first line that is not blank; every earlier line parses as blank |
| Csv.ZipRow | src/utils/csv-parser.js:32-42 | a record's keys are the trimmed headers whose index the row reaches; a repeated header takes the cell of its last occurrence |
| Csv.ZipPrefix | src/utils/csv-parser.js:34-40 | after zipping the first n headers, the keys are those n names, each holding the cell of its last occurrence so far |
| Csv.ParseRecords | src/utils/csv-parser.js:27-42 | the first surviving line is the header and every later surviving line becomes one record |
| Csv.Parse | src/utils/csv-parser.js:8-42 | records are produced exactly when `headers` is not false, and record i zips the header with surviving line i + 1; otherwise the result is the surviving field arrays; an empty delimiter means comma |
| Csv.HeaderOnlyGivesNothing | src/utils/csv-parser.js:27-30 | a file with only a header, or only blank lines, yields no records |
| Values.OrNumber | src/importers/energy/tesla.js:19-23 | the numeric or-fallback keeps a non-zero number and falls back on `NaN` or zero |
| Values.Or | src/importers/energy/pge.js:15 | the or-fallback on cells keeps a non-empty first cell; a missing or empty first cell yields the second |
| WithingsImporter.MapRow | src/importers/health/withings.js:23-113 | the first branch whose column test passes decides the table (activity, blood pressure, height, weight, sleep, temperature); activity needs a positive step count and sleep a positive total; heart rate is null when empty; temperature reads lower-case `date` |
| WithingsImporter.MappedFirstRowIsDetected | src/importers/health/withings.js:4-17 | any row that `mapRow` turns into a record carries a column fingerprint `detect` accepts |
| WithingsImporter.DetectReadsHeader | src/importers/health/withings.js:4-17 | `detect` depends only on the first record's column names, and rejects an empty file |
| WithingsImporter.RecordsNameTheirTable | src/importers/health/withings.js:19-21 | `getTable` is null, and no record needs it: each names its table |
| PgeImporter.MapRow | src/importers/energy/pge.js:14-46 | electric rows go to `electricity_grid_hourly` and gas rows to `gas_daily`; any other type, or a missing date or start time, gives null; gas accepts either header casing |
| PgeImporter.ElectricAndGasRowsSplit | src/importers/energy/pge.js:17-43 | one export feeds two tables: electric and gas rows with date and time both map |
| PgeImporter.DetectReadsHeader | src/importers/energy/pge.js:4-12 | `detect` depends only on the first record's column names, and rejects an empty file |
| PgeImporter.RecordsNameTheirTable | src/importers/energy/pge.js:48-50 | `getTable` is null, and no record needs it: each names its table |
| SfcuImporter.Amount | src/importers/finance/sfcu.js:17-23 | a debit gives its parsed value negated and wins over a credit; a credit gives its parsed value (`NaN` when unreadable); neither gives 0 |
| SfcuImporter.MapRow | src/importers/finance/sfcu.js:10-35 | a row without a post date is skipped; otherwise it is a `transactions` record for account 1 with the description copied verbatim and no `date` key |
| SfcuImporter.DetectReadsHeader | src/importers/finance/sfcu.js:4-8 | `detect` depends only on the first record's column names, and rejects an empty file |
| SfcuImporter.RecordsGoToGetTable | src/importers/finance/sfcu.js:37-39 | `getTable` is `transactions`, and every record names that table |
| TeslaImporter.MapRow | src/importers/energy/tesla.js:10-25 | no date-time gives null, an unreadable one throws, otherwise an `electricity` record keyed by the ISO time, with each energy 0 when unparseable; the table agrees with `getTable` |
| TeslaImporter.DetectReadsHeader | src/importers/energy/tesla.js:4-8 | `detect` depends only on the first record's column names, and rejects an empty file |
| TeslaImporter.RecordsGoToGetTable | src/importers/energy/tesla.js:27-29 | `getTable` is `electricity`, and every record names that table |
| GoogleTimelineImporter.SegmentItems | src/importers/location/google-timeline.js:18-32 | a path contributes all its points; without a path, a visit with a place contributes its place at the start time; otherwise nothing |
| GoogleTimelineImporter.ItemsOfMembers | src/importers/location/google-timeline.js:18-35 | every extracted item comes from some segment's contribution |
| GoogleTimelineImporter.ItemsOfAppend | src/importers/location/google-timeline.js:18-35 | extraction distributes over concatenation of segment lists, so order is kept |
| GoogleTimelineImporter.ExtractItems | src/importers/location/google-timeline.js:5-37 | a truthy `semanticSegments` is used over `timelineObjects`: its segments' items, nothing for a string, a throw for a value that cannot be iterated; a falsy one falls back to `timelineObjects` in the same way, and to nothing; `null` throws; a document that `detect` rejects yields nothing |
| GoogleTimelineImporter.ExtractExample | src/importers/location/google-timeline.js:14-37 | a path segment followed by a visit segment yields the path point, then the visit's place at its start time |
| GoogleTimelineImporter.LatLng | src/importers/location/google-timeline.js:44-50 | a point reads exactly when, once degree signs are gone, it has one comma and both trimmed halves parse; the values are those two parses |
| GoogleTimelineImporter.MapRow | src/importers/location/google-timeline.js:39-57 | a missing point or time, or a point that does not read, gives null; otherwise the result is exactly the flat `lat`/`lng`/`timestamp` of the point's two values and the item's time |
| GoogleTimelineImporter.RecordsGoToGetTable | src/importers/location/google-timeline.js:10-12 | no mapped item names a table, so all go to `getTable`'s `location` |
| Store.Stored | src/db.js:124-126 | a bound `NaN` is stored as NULL and every other value as itself |
| Store.FirstMatch | src/db.js:124-131 | the id of the first row in rowid order that meets every condition, and none exactly when no row does |
| Store.SelectId | src/db.js:124-151 | a lookup finds an id only if every parameter binds, the table exists and a row matches; any failure reads as no rows |
| Store.UpdateById | src/db.js:124-151 | an update touches only rows of its table with that id and renumbers no row; a missing table or an `undefined` parameter leaves the store exactly as it was |
| Store.ColumnsOf | src/services/data-importer.js:142-155 | the new row's columns are exactly the bound names; each holds the stored value of its last binding |
| Store.NextId | src/db.js:124-131 | a new rowid is 1 in an empty table and otherwise one more than some id and greater than every id, so the largest plus one |
| Store.InsertRow | src/db.js:124-151 | an insert appends exactly one row to an existing table when every parameter binds, and otherwise changes nothing |
| Reconciler.FindExisting | src/services/data-importer.js:101-118 | only `electricity`, `gas` and `transactions` are looked up; a found id belongs to a row agreeing on the identity key, and such a row is always found when the key binds |
| Reconciler.Update | src/services/data-importer.js:120-133 | no row count, id or `time` changes; the row with the id receives every written key and nothing else; with nothing to write the store is untouched |
| Reconciler.InsertColumns | src/services/data-importer.js:135-157 | only the three known tables have insert columns; they start with the table's identity columns and name no column twice |
| Reconciler.InsertBindings | src/services/data-importer.js:135-157 | only the three known tables are inserted into; each column is bound to the record's own field, except that a null `solar`, `consumption` or `import` of an electricity record is bound as 0, so those are never null |
| Reconciler.Insert | src/services/data-importer.js:135-157 | an insert either appends one row holding the record or leaves the store exactly as it was |
| Reconciler.Reconcile | src/services/data-importer.js:76-85 | the step touches only the record's own known table and grows it by at most one row |
| Reconciler.FindsFirstMatch | src/services/data-importer.js:101-118 | when the whole identity key binds and some stored row matches it, `findExisting` returns the id of the first matching row |
| Reconciler.MatchedReconcileUpdates | src/services/data-importer.js:76-85 | a record of a known table whose identity key matches a stored row (ids positive) updates the row `findExisting` returns instead of inserting, so no table grows; this covers the composite key of `transactions` |
| Reconciler.UnmatchedReconcileInserts | src/services/data-importer.js:76-85 | a record of a known table that no stored row matches, and whose insert binds, is inserted: the table gains exactly the row `insert` builds, at the end |
| Reconciler.ZeroIdMatchInserts | src/services/data-importer.js:76-85 | an id of 0 from `findExisting` is falsy, so a record whose first matching row has id 0 is inserted, not used to update that row |
| Store.FirstMatchAt | src/db.js:124-131 | the first row in rowid order that meets every condition decides the id found |
| DataImporter.StripPreamble | src/services/data-importer.js:22-25 | text before a PG&E header that starts after position 0 is cut, so the header starts the text; otherwise the text is kept |
| DataImporter.FromOverride | src/services/data-importer.js:39-42 | exactly `pge`, `tesla` and `sfcu` select a class, each its own |
| DataImporter.FirstDetected | src/services/data-importer.js:44 | the selected class is the first whose `detect` accepts the rows; none exactly when no class does |
| DataImporter.SelectImporter | src/services/data-importer.js:39-49 | an override never falls back to detection; without one the first detecting class in PG&E, Tesla, SFCU order wins, so `TYPE` plus `START TIME` always selects PG&E |
| DataImporter.Target | src/services/data-importer.js:61-73 | a `{table, data}` value is unpacked; any other value goes with its data to `getTable()`'s table, and to nowhere when that is null; no registered class returns such a value |
| DataImporter.ImportRow | src/services/data-importer.js:59-90 | a row fails exactly when its mapping throws, succeeds exactly when it reaches a table, and only a successful row changes the store |
| DataImporter.ImportRows | src/services/data-importer.js:55-91 | `success` counts the rows reaching a table and `errors` the rows whose mapping throws; together they never exceed the row count |
| DataImporter.Import | src/services/data-importer.js:11-99 | no rows gives the all-zero "empty" result, no class the all-zero "unknown" result, both with the store untouched; `skipped` is always 0 and the message reports the class and both counts; the store afterwards is the one the row loop leaves |
| ImportProperties.ReconcileStamps | src/services/data-importer.js:76-85 | after reconciling a record with a usable time, a row with that time exists |
| ImportProperties.ReconcileKeepsStamps | src/services/data-importer.js:120-157 | reconciling never removes a stored time and keeps every id positive |
| ImportProperties.StampedReconcileKeepsCounts | src/services/data-importer.js:76-85 | a record whose time is already stored is updated, not inserted, so no table grows |
| ImportProperties.RegisteredRecordsFit | src/services/data-importer.js:101-157 | PG&E and SFCU records never reach a statement that binds; Tesla records are fully bindable `electricity` records keyed by time |
| ImportProperties.ImportRowsWritesOnlyElectricity | src/services/data-importer.js:59-91 | the loop changes no table but `electricity`, and with PG&E or SFCU it changes nothing |
| ImportProperties.ImportRowsStampsEveryRecord | src/services/data-importer.js:59-91 | after the loop, every time-keyed record the rows produce has its time stored |
| ImportProperties.ImportRowsKeepsStamps | src/services/data-importer.js:59-91 | the loop never loses a stored time |
| ImportProperties.StampedImportRowsKeepCounts | src/services/data-importer.js:59-91 | a loop over records that are all stored already adds no row |
| ImportProperties.ImportWritesOnlyElectricity | src/services/data-importer.js:11-99 | an import changes only `electricity`; a PG&E or SFCU import leaves the store exactly as it was |
| ImportProperties.TeslaRowsStoreEveryReading | src/importers/energy/tesla.js:10-25 | over any rows, the Tesla loop leaves a row with the ISO time of every reading the mapper produced |
| ImportProperties.TeslaImportStoresEveryReading | src/services/data-importer.js:59-91 | after a Tesla import, every reading it mapped has its ISO time in `electricity` |
| ImportProperties.ImportTwiceKeepsRowCounts | src/services/data-importer.js:76-85 | importing the same file again gives the same result and no table gains a row |

## Left out

- Engine primitives: `new Date(...)`, `getTime`, `toISOString`, `parseFloat`, `parseInt`, `toFixed` and `JSON.parse` are the fields of a `Host` parameter, with no assumption about them. Floating point and time zones are not modelled.
- The SQL schema: the store is whatever tables it holds, with untyped columns. An `UPDATE` or `INSERT` naming a column the table lacks fails in the source and is swallowed. The model writes such a column instead. No SQLite type affinity is modelled either.
- The `electricity` and `gas` tables are not among those `src/db.js` creates (lines 88-101). With that schema, every import leaves the store unchanged. The theorems take the store as a parameter and cover databases that do have those tables.
- `dbService` itself: the "Database not connected" throw (src/db.js:109), modification listeners, `ensureInitialized`, and the statement-free `exec` path.
- The "Failed to parse CSV" branch (src/services/data-importer.js:28-30) cannot be reached for string content: the model's parse is total.
- A non-string `options.provider`: the provider is a string, and the empty string stands for an absent option.
- Console logging, `async`/`await` (the loop is sequential), and the `filename` argument, which is unused.
- A multi-character delimiter: it never matches a single character, and the model keeps exactly that.
- Csv.ParseLine: characters are Unicode code points, while the source compares single UTF-16 code units. A delimiter outside the Basic Multilingual Plane (an emoji, say) therefore splits fields in the model but never in the source. Inside a line, characters outside that plane compare the same either way, because neither half of a surrogate pair is a quote or a delimiter from that plane. `Csv.Scan` carries the same difference.
- Csv.ZipRow: a header that trims to `__proto__` becomes a record key in the model. In the source, the assignment to a plain object calls the prototype setter, which ignores a string, so no own key appears and `Object.keys` (what `detect` reads) omits it.
- Csv.Parse: inherits both differences above, the delimiter outside the Basic Multilingual Plane and the `__proto__` header.
- GoogleTimelineImporter.ExtractItems: the document's top-level members are modelled as falsy, an array, a non-empty string (iterated by character) or another truthy value (iterating it throws). Other iterable objects, such as a `Map`, count as not iterable. Inside a segment, fields that exist but are not arrays or objects, and `null` segments, are folded into "absent", so the model does not throw where the source would read a property of `null`.
- GoogleTimelineImporter.MapRow: reading `point.replace` on a non-string point is not modelled; a point is a string.
- WithingsImporter.MapRow: `parseInt(steps, 10)` on a positive step count is modelled as the integer part. Step values printed in exponent notation are not distinguished.
- Withings and Google Timeline are not wired into `DataImporter`, because the source does not register them.
- BaseImporter (src/services/importers/base-importer.js) is not part of this model. Every importer overrides its `getTable`, and the importers are a closed datatype.

=== FILE: csv.dfy ===
/** The CSV tokenizer of src/utils/csv-parser.js: line-ending normalisation,
    the per-line quote-aware state machine, blank-line filtering and the
    zipping of body lines with the trimmed header names. */
module Csv {
  import opened Strings

  /** The `options` argument of `parse`. */
  datatype Options = Options(headers: bool, delimiter: string)

  /** `{}`: headers on, delimiter `,`. */
  const Defaults := Options(true, ",")

  /** What `parse` returns: objects when headers are on, field arrays otherwise. */
  datatype Parsed = Records(rows: seq<Row>) | FieldArrays(lines: seq<seq<string>>)

  // ---------------------------------------------------------------- line endings

  /** First pass of the normalisation: each CR LF pair, scanned left to right, becomes LF. */
  function ReplaceCrLf(s: string): (r: string)
    ensures |r| <= |s|
    ensures '\r' !in s ==> r == s
  {
    if |s| < 2 then s
    else if s[0] == '\r' && s[1] == '\n' then "\n" + ReplaceCrLf(s[2..])
    else
      assert '\r' !in s ==> '\r' !in s[1..];
      [s[0]] + ReplaceCrLf(s[1..])
  }

  /** Second pass: each remaining CR becomes LF, every other character is kept. */
  function ReplaceCr(s: string): (r: string)
    ensures |r| == |s|
    ensures '\r' !in r
    ensures forall i :: 0 <= i < |s| && s[i] != '\r' ==> r[i] == s[i]
  {
    if |s| == 0 then ""
    else [if s[0] == '\r' then '\n' else s[0]] + ReplaceCr(s[1..])
  }

  /** The two `replace` calls of `parse`: no CR survives, and text without CR is untouched. */
  function Normalize(text: string): (r: string)
    ensures '\r' !in r
    ensures '\r' !in text ==> r == text
  {
    ReplaceCr(ReplaceCrLf(text))
  }

  /** Reference reading of the normalisation in one left-to-right pass:
      a CR LF pair is one line break, a lone CR is one line break. */
  function LineBreaksToLf(s: string): string
  {
    if |s| == 0 then ""
    else if |s| >= 2 && s[0] == '\r' && s[1] == '\n' then "\n" + LineBreaksToLf(s[2..])
    else if s[0] == '\r' then "\n" + LineBreaksToLf(s[1..])
    else [s[0]] + LineBreaksToLf(s[1..])
  }

  lemma ReplaceCrCons(c: char, s: string)
    ensures ReplaceCr([c] + s) == [if c == '\r' then '\n' else c] + ReplaceCr(s)
  {
    assert ([c] + s)[1..] == s;
  }

  /** The two global replacements agree with the one-pass reading: CR LF and
      lone CR both become exactly one LF. */
  lemma {:induction false} NormalizeIsOnePass(s: string)
    ensures Normalize(s) == LineBreaksToLf(s)
  {
    if |s| == 0 {
    } else if |s| == 1 {
      assert ReplaceCrLf(s) == s;
      ReplaceCrCons(s[0], "");
      assert s == [s[0]] + "";
    } else if s[0] == '\r' && s[1] == '\n' {
      NormalizeIsOnePass(s[2..]);
      ReplaceCrCons('\n', ReplaceCrLf(s[2..]));
    } else {
      NormalizeIsOnePass(s[1..]);
      ReplaceCrCons(s[0], ReplaceCrLf(s[1..]));
    }
  }

  /** `splitIntoLines` applied to the normalised text. */
  function Lines(text: string): (r: seq<string>)
    ensures |r| >= 1
    ensures forall i :: 0 <= i < |r| ==> '\n' !in r[i] && '\r' !in r[i]
    ensures Join(r, '\n') == Normalize(text)
  {
    var n := Normalize(text);
    var r := Split(n, '\n');
    JoinSplit(n, '\n');
    forall i | 0 <= i < |r| ensures '\r' !in r[i] {
      PieceOfSplit(n, '\n', i);
    }
    r
  }

  lemma {:induction false} PieceOfSplit(s: string, sep: char, i: nat)
    requires i < |Split(s, sep)|
    ensures forall c :: c in Split(s, sep)[i] ==> c in s
  {
    if |s| > 0 {
      var rest := Split(s[1..], sep);
      if s[0] == sep {
        if i > 0 { PieceOfSplit(s[1..], sep, i - 1); }
      } else if i == 0 {
        PieceOfSplit(s[1..], sep, 0);
      } else {
        PieceOfSplit(s[1..], sep, i);
      }
    }
  }

  // ---------------------------------------------------------------- one line

  /** The `char === delimiter` test: only a one-character delimiter can match. */
  predicate IsDelimiter(c: char, delimiter: string)
  {
    |delimiter| == 1 && delimiter[0] == c
  }

  /** The number of delimiters the state machine meets outside quotes, starting
      in quote state `inQuotes`; a doubled quote inside quotes is one literal quote. */
  function DelimitersOutsideQuotes(s: string, delimiter: string, inQuotes: bool): nat
  {
    if |s| == 0 then 0
    else if s[0] == '"' then
      if inQuotes && |s| > 1 && s[1] == '"' then DelimitersOutsideQuotes(s[2..], delimiter, inQuotes)
      else DelimitersOutsideQuotes(s[1..], delimiter, !inQuotes)
    else if IsDelimiter(s[0], delimiter) && !inQuotes then 1 + DelimitersOutsideQuotes(s[1..], delimiter, inQuotes)
    else DelimitersOutsideQuotes(s[1..], delimiter, inQuotes)
  }

  /** The loop of `parseLine` on the unread suffix `s`, in quote state
      `inQuotes`, with the field being built in `current` and the finished
      fields in `fields`. */
  function Scan(s: string, delimiter: string, inQuotes: bool, current: string, fields: seq<string>): (r: seq<string>)
    ensures |r| == |fields| + 1 + DelimitersOutsideQuotes(s, delimiter, inQuotes)
    ensures r[..|fields|] == fields
    decreases |s|
  {
    if |s| == 0 then fields + [current]
    else if s[0] == '"' then
      if inQuotes && |s| > 1 && s[1] == '"' then Scan(s[2..], delimiter, inQuotes, current + "\"", fields)
      else Scan(s[1..], delimiter, !inQuotes, current, fields)
    else if IsDelimiter(s[0], delimiter) && !inQuotes then
      var r := Scan(s[1..], delimiter, inQuotes, "", fields + [current]);
      assert r[..|fields|] == r[..|fields| + 1][..|fields|];
      r
    else Scan(s[1..], delimiter, inQuotes, current + [s[0]], fields)
  }

  /** `parseLine`: never empty, one field more than the delimiters met outside quotes. */
  function ParseLine(line: string, delimiter: string): (r: seq<string>)
    ensures |r| == 1 + DelimitersOutsideQuotes(line, delimiter, false)
  {
    Scan(line, delimiter, false, "", [])
  }

  /** Without quotes, the state machine splits the pending field plus the rest
      of the line at every delimiter. */
  lemma {:induction false} ScanUnquoted(s: string, d: char, current: string, fields: seq<string>)
    requires '"' !in s && d != '"' && d !in current
    ensures Scan(s, [d], false, current, fields) == fields + Split(current + s, d)
    decreases |s|, 1
  {
    if |s| == 0 {
      assert current + s == current;
      SplitWithoutSeparator(current, d);
    } else if s[0] == d {
      ScanUnquotedDelimiter(s, d, current, fields);
    } else {
      ScanUnquotedChar(s, d, current, fields);
    }
  }

  /** `ScanUnquoted` at a delimiter: the pending field is closed. */
  lemma {:induction false} ScanUnquotedDelimiter(s: string, d: char, current: string, fields: seq<string>)
    requires |s| > 0 && s[0] == d
    requires '"' !in s && d != '"' && d !in current
    ensures Scan(s, [d], false, current, fields) == fields + Split(current + s, d)
    decreases |s|, 0
  {
    var tail := s[1..];
    assert '"' !in tail;
    ScanAtDelimiter(s, d, current, fields);
    ScanUnquoted(tail, d, "", fields + [current]);
    SplitAtDelimiter(current, s, d);
  }

  /** Splitting a field, a delimiter and a rest gives the field, then the rest's pieces. */
  lemma SplitAtDelimiter(current: string, s: string, d: char)
    requires |s| > 0 && s[0] == d && d !in current
    ensures Split(current + s, d) == [current] + Split("" + s[1..], d)
  {
    assert "" + s[1..] == s[1..];
    assert current + s == current + [d] + s[1..];
    SplitAfterPiece(current, s[1..], d);
  }

  /** `ScanUnquoted` at any other character: it joins the pending field. */
  lemma {:induction false} ScanUnquotedChar(s: string, d: char, current: string, fields: seq<string>)
    requires |s| > 0 && s[0] != d
    requires '"' !in s && d != '"' && d !in current
    ensures Scan(s, [d], false, current, fields) == fields + Split(current + s, d)
    decreases |s|, 0
  {
    assert s[0] != '"';
    assert '"' !in s[1..];
    assert !IsDelimiter(s[0], [d]);
    ScanUnquoted(s[1..], d, current + [s[0]], fields);
    assert current + [s[0]] + s[1..] == current + s;
  }

  lemma ScanAtDelimiter(s: string, d: char, current: string, fields: seq<string>)
    requires |s| > 0 && s[0] == d && d != '"'
    ensures Scan(s, [d], false, current, fields) == Scan(s[1..], [d], false, "", fields + [current])
  {
    assert IsDelimiter(s[0], [d]);
  }

  /** On a line without quote characters, `parseLine` is `split` on the delimiter,
      so joining its fields with the delimiter gives the line back. */
  lemma ParseLineUnquoted(line: string, d: char)
    requires '"' !in line && d != '"'
    ensures ParseLine(line, [d]) == Split(line, d)
    ensures Join(ParseLine(line, [d]), d) == line
  {
    ScanUnquoted(line, d, "", []);
    assert "" + line == line;
    assert [] + Split(line, d) == Split(line, d);
    JoinSplit(line, d);
  }

  /** The quoting convention the state machine reads: every `"` doubled. */
  function Escape(f: string): (r: string)
    ensures |r| == |f| + Count(f, '"')
  {
    if |f| == 0 then ""
    else (if f[0] == '"' then "\"\"" else [f[0]]) + Escape(f[1..])
  }

  /** A field wrapped in quotes with its quotes doubled. */
  function Quote(f: string): string
  {
    "\"" + Escape(f) + "\""
  }

  /** A line with every field quoted, separated by `d`. */
  function EncodeLine(fields: seq<string>, d: char): string
    requires |fields| > 0
  {
    if |fields| == 1 then Quote(fields[0])
    else Quote(fields[0]) + [d] + EncodeLine(fields[1..], d)
  }

  /** Inside quotes, an escaped field followed by the closing quote leaves the
      field's text in the pending field and the machine outside quotes. */
  lemma {:induction false} ScanEscaped(f: string, rest: string, d: char, current: string, fields: seq<string>)
    requires d != '"'
    requires |rest| == 0 || rest[0] != '"'
    ensures Scan(Escape(f) + "\"" + rest, [d], true, current, fields)
         == Scan(rest, [d], false, current + f, fields)
    decreases |f|, 1
  {
    if |f| == 0 {
      assert Escape(f) + "\"" + rest == "\"" + rest;
      ScanClosingQuote(rest, d, current, fields);
      assert current + f == current;
    } else {
      ScanEscapedStep(f, rest, d, current, fields);
    }
  }

  /** `ScanEscaped` for a non-empty field: one character (or doubled quote) of
      the escaped text, then the rest by recursion. */
  lemma {:induction false} ScanEscapedStep(f: string, rest: string, d: char, current: string, fields: seq<string>)
    requires |f| > 0 && d != '"'
    requires |rest| == 0 || rest[0] != '"'
    ensures Scan(Escape(f) + "\"" + rest, [d], true, current, fields)
         == Scan(rest, [d], false, current + f, fields)
    decreases |f|, 0
  {
    var t := Escape(f[1..]) + "\"" + rest;
    EscapeCons(f, rest);
    if f[0] == '"' {
      ScanDoubledQuote(t, d, current, fields);
    } else {
      ScanQuotedChar(f[0], t, d, current, fields);
    }
    ScanEscaped(f[1..], rest, d, current + [f[0]], fields);
    assert current + [f[0]] + f[1..] == current + f;
  }

  /** The escaped text of a field, one character at a time. */
  lemma EscapeCons(f: string, rest: string)
    requires |f| > 0
    ensures f[0] == '"' ==> Escape(f) + "\"" + rest == "\"\"" + (Escape(f[1..]) + "\"" + rest)
    ensures f[0] != '"' ==> Escape(f) + "\"" + rest == [f[0]] + (Escape(f[1..]) + "\"" + rest)
  {
    var e := Escape(f[1..]);
    if f[0] == '"' {
      assert Escape(f) == "\"\"" + e;
      Associate("\"\"", e, "\"", rest);
    } else {
      assert Escape(f) == [f[0]] + e;
      Associate([f[0]], e, "\"", rest);
    }
  }


  /** Inside quotes, `""` is one literal quote. */
  lemma ScanDoubledQuote(t: string, d: char, current: string, fields: seq<string>)
    ensures Scan("\"\"" + t, [d], true, current, fields) == Scan(t, [d], true, current + ['"'], fields)
  {
    assert ("\"\"" + t)[2..] == t;
  }

  /** Inside quotes, any other character, delimiter included, is kept. */
  lemma ScanQuotedChar(c: char, t: string, d: char, current: string, fields: seq<string>)
    requires c != '"'
    ensures Scan([c] + t, [d], true, current, fields) == Scan(t, [d], true, current + [c], fields)
  {
    assert ([c] + t)[1..] == t;
  }

  /** A quote not followed by another one closes the quoted part. */
  lemma ScanClosingQuote(rest: string, d: char, current: string, fields: seq<string>)
    requires |rest| == 0 || rest[0] != '"'
    ensures Scan("\"" + rest, [d], true, current, fields) == Scan(rest, [d], false, current, fields)
  {
    assert ("\"" + rest)[1..] == rest;
  }

  lemma ScanQuoted(f: string, rest: string, d: char, fields: seq<string>)
    requires d != '"'
    requires |rest| == 0 || rest[0] != '"'
    ensures Scan(Quote(f) + rest, [d], false, "", fields) == Scan(rest, [d], false, f, fields)
  {
    var s := Quote(f) + rest;
    assert s[1..] == Escape(f) + "\"" + rest;
    ScanEscaped(f, rest, d, "", fields);
    assert "" + f == f;
  }

  lemma {:induction false} ScanEncoded(fields: seq<string>, d: char, done: seq<string>)
    requires |fields| > 0 && d != '"'
    ensures Scan(EncodeLine(fields, d), [d], false, "", done) == done + fields
  {
    if |fields| == 1 {
      ScanQuoted(fields[0], "", d, done);
      assert Quote(fields[0]) + "" == Quote(fields[0]);
    } else {
      var tail := EncodeLine(fields[1..], d);
      assert Quote(fields[0]) + [d] + tail == Quote(fields[0]) + ([d] + tail);
      ScanQuoted(fields[0], [d] + tail, d, done);
      assert ([d] + tail)[1..] == tail;
      ScanEncoded(fields[1..], d, done + [fields[0]]);
      assert done + [fields[0]] + fields[1..] == done + fields;
    }
  }

  /** Quoting round trip: whatever the fields hold (delimiters, quotes,
      anything), quoting them, doubling their quotes and joining them with the
      delimiter gives a line that `parseLine` reads back as exactly those fields. */
  lemma QuotedRoundTrip(fields: seq<string>, d: char)
    requires |fields| > 0 && d != '"'
    ensures ParseLine(EncodeLine(fields, d), [d]) == fields
  {
    ScanEncoded(fields, d, []);
  }

  lemma {:induction false} ScanPlain(a: string, rest: string, d: char, current: string, fields: seq<string>)
    requires '"' !in a && d !in a
    ensures Scan(a + rest, [d], false, current, fields) == Scan(rest, [d], false, current + a, fields)
  {
    if |a| == 0 {
      assert a + rest == rest;
      assert current + a == current;
    } else {
      assert (a + rest)[1..] == a[1..] + rest;
      assert !IsDelimiter(a[0], [d]);
      ScanPlain(a[1..], rest, d, current + [a[0]], fields);
      assert current + [a[0]] + a[1..] == current + a;
    }
  }

  /** A line made of an unquoted field, a quoted field and an unquoted field
      reads as those three fields. */
  lemma MixedLine(a: string, f: string, e: string, d: char)
    requires d != '"'
    requires '"' !in a && d !in a && '"' !in e && d !in e
    ensures ParseLine(a + [d] + Quote(f) + [d] + e, [d]) == [a, f, e]
  {
    var x := Quote(f) + ([d] + e);
    assert a + [d] + Quote(f) + [d] + e == a + ([d] + x);
    ScanPlain(a, [d] + x, d, "", []);
    assert "" + a == a;
    DelimiterCloses(x, d, a, []);
    assert [] + [a] == [a];
    QuotedThenPlain(f, e, d, [a]);
  }

  /** A delimiter outside quotes closes the pending field. */
  lemma DelimiterCloses(x: string, d: char, current: string, fields: seq<string>)
    requires d != '"'
    ensures Scan([d] + x, [d], false, current, fields) == Scan(x, [d], false, "", fields + [current])
  {
    assert ([d] + x)[0] == d && ([d] + x)[1..] == x;
    assert IsDelimiter(d, [d]);
  }

  /** A quoted field, a delimiter and a plain last field. */
  lemma QuotedThenPlain(f: string, e: string, d: char, fields: seq<string>)
    requires d != '"'
    requires '"' !in e && d !in e
    ensures Scan(Quote(f) + ([d] + e), [d], false, "", fields) == fields + [f, e]
  {
    ScanQuoted(f, [d] + e, d, fields);
    DelimiterCloses(e, d, f, fields);
    ScanPlain(e, "", d, "", fields + [f]);
    assert e + "" == e;
    assert "" + e == e;
    assert fields + [f] + [e] == fields + [f, e];
  }

  lemma EscapeExample()
    ensures Quote("b,c\"d") == "\"b,c\"\"d\""
  {
    assert Escape("d") == "d";
    assert Escape("\"d") == "\"\"d";
    assert Escape("b,c\"d") == "b,c\"\"d";
  }

  /** The worked example: inside quotes `""` is one quote and the comma is data. */
  lemma QuotingExample()
    ensures ParseLine("a,\"b,c\"\"d\",e", ",") == ["a", "b,c\"d", "e"]
  {
    EscapeExample();
    MixedLine("a", "b,c\"d", "e", ',');
    assert "a" + [','] + Quote("b,c\"d") + [','] + "e" == "a,\"b,c\"\"d\",e";
  }

  // ---------------------------------------------------------------- blank lines

  /** The filter of `parse`: a line survives unless it parsed to no field or to one empty field. */
  predicate KeepLine(fields: seq<string>)
  {
    |fields| > 0 && (|fields| > 1 || fields[0] != "")
  }

  /** A parsed line is dropped exactly when it is the single empty field; the
      empty line is dropped, and a line without quotes or delimiter (a
      whitespace-only line, say) is one field that survives unless empty. */
  lemma BlankLines(line: string, d: char)
    ensures !KeepLine(ParseLine(line, [d])) <==> ParseLine(line, [d]) == [""]
    ensures line == "" ==> !KeepLine(ParseLine(line, [d]))
    ensures '"' !in line && d != '"' && d !in line ==>
              ParseLine(line, [d]) == [line] && (KeepLine(ParseLine(line, [d])) <==> line != "")
  {
    if '"' !in line && d != '"' && d !in line {
      ParseLineUnquoted(line, d);
      SplitWithoutSeparator(line, d);
    }
  }

  /** The surviving parsed lines, in order. */
  function NonBlank(lines: seq<seq<string>>): (r: seq<seq<string>>)
    ensures |r| <= |lines|
    ensures forall x :: x in r <==> x in lines && KeepLine(x)
    ensures |lines| == 1 ==> r == (if KeepLine(lines[0]) then lines else [])
  {
    if |lines| == 0 then []
    else
      assert forall x :: x in lines <==> x == lines[0] || x in lines[1..];
      (if KeepLine(lines[0]) then [lines[0]] else []) + NonBlank(lines[1..])
  }

  /** The filter works piece by piece: with the one-line case, the kept lines
      stay in their original order, so the first kept line is the header. */
  lemma {:induction false} NonBlankAppend(a: seq<seq<string>>, b: seq<seq<string>>)
    ensures NonBlank(a + b) == NonBlank(a) + NonBlank(b)
  {
    if |a| > 0 {
      assert (a + b)[1..] == a[1..] + b;
      NonBlankAppend(a[1..], b);
      var h := if KeepLine(a[0]) then [a[0]] else [];
      Associate(h, NonBlank(a[1..]), NonBlank(b), []);
    } else {
      assert a + b == b;
    }
  }

  /** The first kept line is the first line the filter accepts. */
  lemma {:induction false} NonBlankHead(lines: seq<seq<string>>)
    requires |NonBlank(lines)| > 0
    ensures exists i :: 0 <= i < |lines| && NonBlank(lines)[0] == lines[i] && KeepLine(lines[i])
                        && forall j :: 0 <= j < i ==> !KeepLine(lines[j])
  {
    if !KeepLine(lines[0]) {
      NonBlankHead(lines[1..]);
      var i :| 0 <= i < |lines[1..]| && NonBlank(lines[1..])[0] == lines[1..][i] && KeepLine(lines[1..][i])
               && forall j :: 0 <= j < i ==> !KeepLine(lines[1..][j]);
      assert lines[1..][i] == lines[i + 1];
      forall j | 0 <= j < i + 1 ensures !KeepLine(lines[j]) {
        if j > 0 {
          assert lines[j] == lines[1..][j - 1];
        }
      }
    }
  }

  /** `lines.map(line => this.parseLine(line, delimiter))`. */
  function ParsedLines(text: string, delimiter: string): (r: seq<seq<string>>)
    ensures |r| == |Lines(text)|
    ensures forall i :: 0 <= i < |r| ==> r[i] == ParseLine(Lines(text)[i], delimiter)
  {
    var lines := Lines(text);
    seq(|lines|, i requires 0 <= i < |lines| => ParseLine(lines[i], delimiter))
  }

  /** The parsed lines followed by the blank-line filter: exactly the kept
      parses of the text's lines, in the order of the lines. */
  function Surviving(text: string, delimiter: string): (r: seq<seq<string>>)
    ensures forall x :: x in r <==> KeepLine(x) && exists i :: 0 <= i < |Lines(text)| && x == ParseLine(Lines(text)[i], delimiter)
    ensures r == NonBlank(ParsedLines(text, delimiter))
  {
    var lines := Lines(text);
    var parsed := ParsedLines(text, delimiter);
    assert forall x :: x in parsed <==> exists i :: 0 <= i < |lines| && x == ParseLine(lines[i], delimiter) by {
      forall x | x in parsed ensures exists i :: 0 <= i < |lines| && x == ParseLine(lines[i], delimiter) {
        var i :| 0 <= i < |parsed| && parsed[i] == x;
        assert x == ParseLine(lines[i], delimiter);
      }
      forall x | exists i :: 0 <= i < |lines| && x == ParseLine(lines[i], delimiter) ensures x in parsed {
        var i :| 0 <= i < |lines| && x == ParseLine(lines[i], delimiter);
        assert parsed[i] == x;
      }
    }
    NonBlank(parsed)
  }

  /** The header is the first non-blank parsed line: every line before it
      parses as blank. */
  lemma SurvivingHeader(text: string, delimiter: string)
    requires |Surviving(text, delimiter)| > 0
    ensures exists i :: 0 <= i < |Lines(text)| && Surviving(text, delimiter)[0] == ParseLine(Lines(text)[i], delimiter)
                        && KeepLine(Surviving(text, delimiter)[0])
                        && forall j :: 0 <= j < i ==> !KeepLine(ParseLine(Lines(text)[j], delimiter))
  {
    NonBlankHead(ParsedLines(text, delimiter));
  }

  // ---------------------------------------------------------------- header zip

  /** The column names: every header cell trimmed. */
  function Names(header: seq<string>): (r: seq<string>)
    ensures |r| == |header|
    ensures forall i :: 0 <= i < |header| ==> r[i] == Trim(header[i])
  {
    if |header| == 0 then [] else [Trim(header[0])] + Names(header[1..])
  }

  /** `names[i]` is the last of the first `n` names equal to it. */
  predicate LastWithName(names: seq<string>, i: int, n: int)
    requires 0 <= i < n <= |names|
  {
    forall j :: i < j < n ==> names[j] != names[i]
  }

  /** The `forEach` over the first `n` header positions. */
  function ZipPrefix(names: seq<string>, row: seq<string>, n: nat): (r: Row)
    requires n <= |names| && n <= |row|
    ensures r.Keys == set i | 0 <= i < n :: names[i]
    ensures forall i :: 0 <= i < n && LastWithName(names, i, n) ==> r[names[i]] == row[i]
  {
    if n == 0 then map[]
    else
      var prev := ZipPrefix(names, row, n - 1);
      ZipStep(names, row, n, prev);
      prev[names[n - 1] := row[n - 1]]
  }

  /** Writing the n-th cell keeps the zip invariant: one more key, and every
      last occurrence holding its cell. */
  lemma ZipStep(names: seq<string>, row: seq<string>, n: nat, prev: Row)
    requires 0 < n <= |names| && n <= |row|
    requires prev.Keys == set i | 0 <= i < n - 1 :: names[i]
    requires forall i :: 0 <= i < n - 1 && LastWithName(names, i, n - 1) ==> prev[names[i]] == row[i]
    ensures prev[names[n - 1] := row[n - 1]].Keys == set i | 0 <= i < n :: names[i]
    ensures forall i :: 0 <= i < n && LastWithName(names, i, n) ==> prev[names[n - 1] := row[n - 1]][names[i]] == row[i]
  {
    var r := prev[names[n - 1] := row[n - 1]];
    NamesStep(names, n);
    forall i | 0 <= i < n && LastWithName(names, i, n)
      ensures r[names[i]] == row[i]
    {
      if i < n - 1 {
        assert names[n - 1] != names[i];
        assert LastWithName(names, i, n - 1);
      }
    }
  }

  lemma NamesStep(names: seq<string>, n: nat)
    requires 0 < n <= |names|
    ensures (set i | 0 <= i < n :: names[i]) == (set i | 0 <= i < n - 1 :: names[i]) + {names[n - 1]}
  {
    var a := set i | 0 <= i < n :: names[i];
    var b := set i | 0 <= i < n - 1 :: names[i];
    forall k | k in a ensures k in b + {names[n - 1]} {
      var i :| 0 <= i < n && names[i] == k;
      if i < n - 1 { assert k in b; }
    }
    forall k | k in b ensures k in a {
      var i :| 0 <= i < n - 1 && names[i] == k;
      assert 0 <= i < n;
    }
    assert names[n - 1] in a;
  }

  /** One body line as an object: a key per trimmed header name that has a field
      at its index; extra fields are ignored; a later duplicate header wins. */
  function ZipRow(header: seq<string>, row: seq<string>): (r: Row)
    ensures var names := Names(header);
            && r.Keys == (set i | 0 <= i < |header| && i < |row| :: names[i])
            && forall i :: 0 <= i < |header| && i < |row| && LastWithName(names, i, Min(|header|, |row|))
                 ==> r[names[i]] == row[i]
  {
    var names := Names(header);
    var n := Min(|header|, |row|);
    var r := ZipPrefix(names, row, n);
    assert (set i | 0 <= i < n :: names[i]) == (set i | 0 <= i < |header| && i < |row| :: names[i]);
    r
  }

  function Min(a: nat, b: nat): nat { if a <= b then a else b }

  // ---------------------------------------------------------------- parse

  /** `parse(text)` with headers on: the first surviving line names the columns,
      every later surviving line becomes one record. */
  function ParseRecords(text: string, delimiter: string): (r: seq<Row>)
    ensures var s := Surviving(text, delimiter);
            |r| == (if |s| == 0 then 0 else |s| - 1)
            && forall i :: 0 <= i < |r| ==> r[i] == ZipRow(s[0], s[i + 1])
  {
    BodyRecords(Surviving(text, delimiter))
  }

  /** The body lines zipped with the header line, when there is one. */
  function BodyRecords(s: seq<seq<string>>): (r: seq<Row>)
    ensures |r| == (if |s| == 0 then 0 else |s| - 1)
    ensures forall i :: 0 <= i < |r| ==> r[i] == ZipRow(s[0], s[i + 1])
  {
    if |s| == 0 then []
    else seq(|s| - 1, i requires 0 <= i < |s| - 1 => ZipRow(s[0], s[i + 1]))
  }

  /** `parse(text, options)`: an empty delimiter falls back to `,`; with headers
      off the surviving field arrays come back unchanged. */
  function Parse(text: string, options: Options): (r: Parsed)
    ensures options.headers <==> r.Records?
    ensures var d := if options.delimiter == "" then "," else options.delimiter;
            && (r.FieldArrays? ==> r.lines == Surviving(text, d))
            && (r.Records? ==> |r.rows| == Max0(|Surviving(text, d)| - 1))
            && (r.Records? ==> forall i :: 0 <= i < |r.rows| ==> r.rows[i] == ZipRow(Surviving(text, d)[0], Surviving(text, d)[i + 1]))
  {
    var d := if options.delimiter == "" then "," else options.delimiter;
    if !options.headers then FieldArrays(Surviving(text, d))
    else Records(ParseRecords(text, d))
  }

  function Max0(x: int): nat { if x < 0 then 0 else x }

  /** A text with no surviving line, or with only a header line, gives no records. */
  lemma HeaderOnlyGivesNothing(text: string, delimiter: string)
    requires |Surviving(text, delimiter)| <= 1
    ensures ParseRecords(text, delimiter) == []
  {
  }
}

=== FILE: google_timeline.dfy ===
/** GoogleTimelineImporter (src/importers/location/google-timeline.js): Google
    location-history JSON. The coordinator does not register it; it is modelled
    on its own, over the parts of the JSON document it reads. */
module GoogleTimelineImporter {
  import opened Wrappers
  import opened Strings
  import opened Values

  /** A point of a path, or a point built from a visit. */
  datatype Item = Item(point: Option<string>, time: Option<string>)

  datatype Place = Place(latLng: Option<string>)
  datatype Candidate = Candidate(placeLocation: Option<Place>)
  datatype Visit = Visit(topCandidate: Option<Candidate>)

  /** One segment. `timelinePath` is `Some` exactly when it is an array. */
  datatype Segment = Segment(timelinePath: Option<seq<Item>>, visit: Option<Visit>, startTime: Option<string>)

  /** A top-level member of the document as `data.x || ...` and `for ... of`
      see it: falsy or absent, an array of segments, a non-empty string
      (iterable, but its characters carry no segment fields), or any other
      truthy value, which `for ... of` cannot iterate. */
  datatype Member = Missing | Segments(segments: seq<Segment>) | Characters | NotIterable

  /** The parsed document: `null`, a value without the two members (an array,
      say), or an object with its two members. */
  datatype Document =
    | NoDocument
    | ArrayDocument
    | ObjectDocument(semanticSegments: Member, timelineObjects: Member)

  const DegreeSign := '\U{00B0}'

  /** `detect`: an object with a `semanticSegments` or `timelineObjects` array. */
  function Detect(doc: Document): bool
  {
    doc.ObjectDocument? && (doc.semanticSegments.Segments? || doc.timelineObjects.Segments?)
  }

  /** `getTable`. */
  function GetTable(): Option<TableName>
  {
    Some("location")
  }

  /** The visit's place location, when `visit.topCandidate.placeLocation` is there. */
  function PlaceOf(seg: Segment): Option<Place>
  {
    if seg.visit.Some? && seg.visit.value.topCandidate.Some? then seg.visit.value.topCandidate.value.placeLocation
    else None
  }

  /** What one segment contributes: its whole path if it has one, otherwise
      the visit's place at the segment's start time, otherwise nothing. */
  function SegmentItems(seg: Segment): (r: seq<Item>)
    ensures seg.timelinePath.Some? ==> r == seg.timelinePath.value
    ensures seg.timelinePath.None? && PlaceOf(seg).Some? ==> r == [Item(PlaceOf(seg).value.latLng, seg.startTime)]
    ensures seg.timelinePath.None? && PlaceOf(seg).None? ==> r == []
  {
    if seg.timelinePath.Some? then seg.timelinePath.value
    else match PlaceOf(seg)
      case Some(place) => [Item(place.latLng, seg.startTime)]
      case None => []
  }

  /** The `for ... of` loop: segment contributions concatenated in order. */
  function ItemsOf(segments: seq<Segment>): seq<Item>
  {
    if |segments| == 0 then [] else SegmentItems(segments[0]) + ItemsOf(segments[1..])
  }

  /** Extraction distributes over concatenation of segment lists. */
  lemma {:induction false} ItemsOfAppend(a: seq<Segment>, b: seq<Segment>)
    ensures ItemsOf(a + b) == ItemsOf(a) + ItemsOf(b)
  {
    if |a| == 0 {
      assert a + b == b;
    } else {
      assert (a + b)[1..] == a[1..] + b;
      ItemsOfAppend(a[1..], b);
    }
  }

  /** Every item comes from some segment, and every item of every segment is there. */
  lemma {:induction false} ItemsOfMembers(segments: seq<Segment>)
    ensures forall it :: it in ItemsOf(segments) <==> exists i :: 0 <= i < |segments| && it in SegmentItems(segments[i])
  {
    if |segments| > 0 {
      ItemsOfMembers(segments[1..]);
      forall it | (exists i :: 0 <= i < |segments| && it in SegmentItems(segments[i]))
        ensures it in ItemsOf(segments)
      {
        var i :| 0 <= i < |segments| && it in SegmentItems(segments[i]);
        if i > 0 { assert segments[1..][i - 1] == segments[i]; }
      }
      forall it | it in ItemsOf(segments)
        ensures exists i :: 0 <= i < |segments| && it in SegmentItems(segments[i])
      {
        if it !in SegmentItems(segments[0]) {
          assert ItemsOf(segments) == SegmentItems(segments[0]) + ItemsOf(segments[1..]);
          assert it in ItemsOf(segments[1..]);
          var i :| 0 <= i < |segments[1..]| && it in SegmentItems(segments[1..][i]);
          assert segments[1..][i] == segments[i + 1];
        }
      }
    }
  }

  /** `data.semanticSegments || data.timelineObjects || []`. */
  function Chosen(semantic: Member, objects: Member): Member
  {
    if !semantic.Missing? then semantic else objects
  }

  /** `extractItems`: `semanticSegments` if truthy, else `timelineObjects`,
      else nothing. Reading a property of `null`, or iterating a truthy value
      that is neither an array nor a string, throws (None). */
  function ExtractItems(doc: Document): (r: Option<seq<Item>>)
    ensures r.None? <==> doc.NoDocument? || (doc.ObjectDocument? && Chosen(doc.semanticSegments, doc.timelineObjects).NotIterable?)
    ensures doc.ObjectDocument? && doc.semanticSegments.Segments? ==> r == Some(ItemsOf(doc.semanticSegments.segments))
    ensures doc.ObjectDocument? && doc.semanticSegments.Missing? && doc.timelineObjects.Segments? ==>
              r == Some(ItemsOf(doc.timelineObjects.segments))
    ensures doc.ObjectDocument? && doc.semanticSegments.NotIterable? ==> r.None?
    ensures doc.ObjectDocument? && doc.semanticSegments.Characters? ==> r == Some([])
    ensures doc.ObjectDocument? && doc.semanticSegments.Missing? && !doc.timelineObjects.Segments? ==>
              r == (if doc.timelineObjects.NotIterable? then None else Some([]))
    ensures doc.ArrayDocument? ==> r == Some([])
    ensures !Detect(doc) && r.Some? ==> r == Some([])
  {
    match doc
    case NoDocument => None
    case ArrayDocument => Some([])
    case ObjectDocument(semantic, objects) =>
      match Chosen(semantic, objects)
      case Segments(segments) => Some(ItemsOf(segments))
      case Missing => Some([])
      case Characters => Some([])
      case NotIterable => None
  }

  /** The two halves of a point with degree signs removed, when there is
      exactly one comma and both trimmed halves parse as numbers. */
  function LatLng(host: Host, point: string): (r: Option<(real, real)>)
    ensures var cleaned := Remove(point, DegreeSign);
            var parts := Split(cleaned, ',');
            r.Some? <==> Count(cleaned, ',') == 1 && host.parseFloat(Trim(parts[0])).Some? && host.parseFloat(Trim(parts[1])).Some?
    ensures var parts := Split(Remove(point, DegreeSign), ',');
            r.Some? ==> r.value == (host.parseFloat(Trim(parts[0])).value, host.parseFloat(Trim(parts[1])).value)
  {
    var parts := Split(Remove(point, DegreeSign), ',');
    if |parts| != 2 then None
    else
      var lat := host.parseFloat(Trim(parts[0]));
      var lng := host.parseFloat(Trim(parts[1]));
      if lat.None? || lng.None? then None else Some((lat.value, lng.value))
  }

  /** `mapRow`: an item without a point or time is skipped; otherwise the
      point must read as a latitude and longitude (see `LatLng`), and then the
      result is the flat `{lat, lng, timestamp}`; anything else is skipped. */
  function MapRow(host: Host, item: Item): (r: Mapped)
    ensures r.Skip? || r.Flat?
    ensures r.Flat? <==> item.point.Some? && item.point.value != "" && item.time.Some? && item.time.value != ""
                         && LatLng(host, item.point.value).Some?
    ensures r.Flat? ==> r.data == map["lat" := Num(LatLng(host, item.point.value).value.0),
                                      "lng" := Num(LatLng(host, item.point.value).value.1),
                                      "timestamp" := Time(host, item.time)]
  {
    if item.point.None? || item.point.value == "" || item.time.None? || item.time.value == "" then Skip
    else
      match LatLng(host, item.point.value)
      case None => Skip
      case Some(ll) => Flat(map["lat" := Num(ll.0), "lng" := Num(ll.1), "timestamp" := Time(host, item.time)])
  }

  /** The path and visit examples: a path point is passed through, a visit
      becomes its place at the segment's start time, in segment order. */
  lemma ExtractExample(path: Item, latLng: string, start: string)
    ensures var doc := ObjectDocument(Segments([
                         Segment(Some([path]), None, None),
                         Segment(None, Some(Visit(Some(Candidate(Some(Place(Some(latLng))))))), Some(start))]), Missing);
            ExtractItems(doc) == Some([path, Item(Some(latLng), Some(start))])
  {
    var segs := [Segment(Some([path]), None, None),
                 Segment(None, Some(Visit(Some(Candidate(Some(Place(Some(latLng))))))), Some(start))];
    assert ItemsOf(segs[1..][1..]) == [];
    assert ItemsOf(segs[1..]) == [Item(Some(latLng), Some(start))];
    assert SegmentItems(segs[0]) == [path];
    assert ItemsOf(segs) == [path] + [Item(Some(latLng), Some(start))];
    assert [path] + [Item(Some(latLng), Some(start))] == [path, Item(Some(latLng), Some(start))];
    assert ExtractItems(ObjectDocument(Segments(segs), Missing)) == Some([path, Item(Some(latLng), Some(start))]);
  }

  /** No record names a table, so every one goes to `getTable`'s `location`. */
  lemma RecordsGoToGetTable(host: Host, item: Item)
    ensures GetTable() == Some("location") && !MapRow(host, item).Tagged?
  {
  }
}

=== FILE: import_properties.dfy ===
/** What one import does to the store, and what a second import of the same
    file does. Of the registered importers only Tesla reaches a table the
    reconciler knows with the keys it reads: PG&E records go to tables
    `findExisting`/`insert` do not handle, and SFCU records carry `timestamp`
    where the reconciler reads `date`, so both leave the store as it was. */
module ImportProperties {
  import opened Wrappers
  import opened Strings
  import opened Values
  import opened Store
  import opened Reconciler
  import opened DataImporter
  import PgeImporter
  import TeslaImporter
  import SfcuImporter

  // ---------------------------------------------------------------- records

  /** A record the reconciler cannot act on: an unknown table, or key and
      insert parameters that cannot both be bound. */
  predicate Inert(table: string, data: Fields)
  {
    !KnownTable(table) || (!Bindable(Identity(table, data)) && !Bindable(InsertBindings(table, data).value))
  }

  /** A record keyed by a usable `time`, whose insert binds every parameter. */
  predicate WellKeyed(table: string, data: Fields)
  {
    && (table == "electricity" || table == "gas")
    && (Field(data, "time").Num? || Field(data, "time").Text?)
    && Bindable(InsertBindings(table, data).value)
  }

  /** Every id is a positive rowid, as SQLite assigns them. */
  predicate IdsPositive(store: Store)
  {
    forall t, i :: t in store && 0 <= i < |store[t]| ==> store[t][i].id > 0
  }

  /** Some stored row of `table` has `time = v`, or the table does not exist. */
  predicate Stamped(store: Store, table: string, v: Value)
  {
    table in store ==> exists i :: 0 <= i < |store[table]| && SqlEquals(Column(store[table][i], "time"), v)
  }

  lemma InertReconcile(store: Store, table: string, data: Fields)
    requires Inert(table, data)
    ensures Reconcile(store, table, data) == store
  {
    assert FindExisting(store, table, data).None?;
  }

  /** Matching the identity of a time-keyed record is agreeing on `time`. */
  lemma TimeIdentity(table: string, data: Fields, row: StoredRow)
    requires table == "electricity" || table == "gas"
    ensures Matches(row, Identity(table, data)) <==> SqlEquals(Column(row, "time"), Field(data, "time"))
  {
    assert Identity(table, data)[0] == ("time", Field(data, "time"));
  }

  /** A name bound first and never again keeps its first value. */
  lemma FirstBindingStored(b: seq<Binding>)
    requires |b| > 0 && forall j :: 0 < j < |b| ==> b[j].0 != b[0].0
    ensures b[0].0 in ColumnsOf(b) && ColumnsOf(b)[b[0].0] == Stored(b[0].1)
  {
  }

  /** Reconciling a well-keyed record leaves a row carrying its time. */
  lemma {:induction false} ReconcileStamps(store: Store, table: string, data: Fields)
    requires WellKeyed(table, data) && IdsPositive(store)
    ensures Stamped(Reconcile(store, table, data), table, Field(data, "time"))
  {
    if table in store {
      var r := Reconcile(store, table, data);
      var existing := FindExisting(store, table, data);
      if existing.Some? && existing.value != 0 {
        var i :| 0 <= i < |store[table]| && store[table][i].id == existing.value
                 && Matches(store[table][i], Identity(table, data));
        TimeIdentity(table, data, store[table][i]);
        assert Column(r[table][i], "time") == Column(store[table][i], "time");
      } else {
        var b := InsertBindings(table, data).value;
        assert b[0] == ("time", Field(data, "time"));
        FirstBindingStored(b);
        var last := StoredRow(NextId(store[table]), ColumnsOf(b));
        assert r[table] == store[table] + [last];
        assert r[table][|store[table]|] == last;
      }
    }
  }

  /** Reconciling any record keeps every stored time and every id positive. */
  lemma {:induction false} ReconcileKeepsStamps(store: Store, table: string, data: Fields)
    requires IdsPositive(store)
    ensures IdsPositive(Reconcile(store, table, data))
    ensures forall t, v :: Stamped(store, t, v) ==> Stamped(Reconcile(store, table, data), t, v)
  {
    var r: map<string, seq<StoredRow>> := Reconcile(store, table, data);
    forall t: string, i: int | t in r && 0 <= i < |r[t]|
      ensures r[t][i].id > 0 && (i < |store[t]| ==> Column(r[t][i], "time") == Column(store[t][i], "time"))
    {
      var existing := FindExisting(store, table, data);
      if existing.Some? && existing.value != 0 {
        assert |r[t]| == |store[t]|;
      } else if !InsertIsNoOp(store, table, data) && t == table {
        assert r[t] == store[t] + [StoredRow(NextId(store[t]), ColumnsOf(InsertBindings(table, data).value))];
      }
    }
    forall t, v | Stamped(store, t, v)
      ensures Stamped(r, t, v)
    {
      if t in r {
        var i :| 0 <= i < |store[t]| && SqlEquals(Column(store[t][i], "time"), v);
        assert SqlEquals(Column(r[t][i], "time"), v);
      }
    }
  }

  /** A well-keyed record whose time is already stored is an update: no table
      grows. */
  lemma {:induction false} StampedReconcileKeepsCounts(store: Store, table: string, data: Fields)
    requires WellKeyed(table, data) && IdsPositive(store) && Stamped(store, table, Field(data, "time"))
    ensures forall t :: t in store ==> |Reconcile(store, table, data)[t]| == |store[t]|
  {
    if table in store {
      var i :| 0 <= i < |store[table]| && SqlEquals(Column(store[table][i], "time"), Field(data, "time"));
      TimeIdentity(table, data, store[table][i]);
      assert Identity(table, data)[0] == ("time", Field(data, "time"));
      assert Bindable(Identity(table, data));
      var existing := FindExisting(store, table, data);
      assert existing.Some?;
      var j :| 0 <= j < |store[table]| && store[table][j].id == existing.value
               && Matches(store[table][j], Identity(table, data));
      assert existing.value != 0;
    } else {
      assert FindExisting(store, table, data).None?;
    }
  }

  // ---------------------------------------------------------------- registered importers

  /** What the registered importers emit: inert records, or well-keyed
      `electricity` records. */
  predicate Fits(host: Host, p: Provider, row: Row)
  {
    match Target(host, p, row)
    case None => true
    case Some((table, data)) => Inert(table, data) || (table == "electricity" && WellKeyed(table, data))
  }

  /** PG&E and SFCU records are inert, Tesla records are well keyed. */
  lemma RegisteredRecordsFit(host: Host, p: Provider, row: Row)
    ensures Fits(host, p, row)
    ensures p != Tesla && Target(host, p, row).Some? ==> Inert(Target(host, p, row).value.0, Target(host, p, row).value.1)
    ensures p == Tesla && Target(host, p, row).Some? ==>
              var (table, data) := Target(host, p, row).value;
              table == "electricity" && WellKeyed(table, data)
  {
    if Target(host, p, row).Some? {
      match p
      case Pge => PgeRecordsInert(host, row);
      case Sfcu => SfcuRecordsInert(host, row);
      case Tesla => TeslaRecordsWellKeyed(host, row);
    }
  }

  /** PG&E records name tables the reconciler does not handle. */
  lemma PgeRecordsInert(host: Host, row: Row)
    requires Target(host, Pge, row).Some?
    ensures !KnownTable(Target(host, Pge, row).value.0)
  {
    var m := PgeImporter.MapRow(host, row);
    assert m.table == "electricity_grid_hourly" || m.table == "gas_daily";
  }

  /** SFCU records have no `date`, so neither lookup nor insert can bind. */
  lemma SfcuRecordsInert(host: Host, row: Row)
    requires Target(host, Sfcu, row).Some?
    ensures Inert(Target(host, Sfcu, row).value.0, Target(host, Sfcu, row).value.1)
  {
    var (table, data) := Target(host, Sfcu, row).value;
    assert table == "transactions";
    assert "date" !in data;
    assert Identity(table, data)[0].1 == Undefined;
    assert InsertBindings(table, data).value[0].1 == Undefined;
  }

  /** Tesla records are `electricity` records with a text time and numbers. */
  lemma TeslaRecordsWellKeyed(host: Host, row: Row)
    requires Target(host, Tesla, row).Some?
    ensures Target(host, Tesla, row).value.0 == "electricity"
    ensures WellKeyed(Target(host, Tesla, row).value.0, Target(host, Tesla, row).value.1)
  {
    var (table, data) := Target(host, Tesla, row).value;
    assert table == "electricity";
    assert Field(data, "time").Text?;
    var b := InsertBindings(table, data).value;
    assert forall j :: 0 <= j < |b| ==> b[j].1.Num? || b[j].1.Text?;
  }

  // ---------------------------------------------------------------- the loop

  /** The row's record, if it reaches the store well keyed, has its time stored. */
  predicate RecordStamped(store: Store, host: Host, p: Provider, row: Row)
  {
    match Target(host, p, row)
    case None => true
    case Some((table, data)) => WellKeyed(table, data) ==> Stamped(store, table, Field(data, "time"))
  }

  /** The rows' stored times, for the rows that reach the store well keyed. */
  predicate AllStamped(store: Store, host: Host, p: Provider, rows: seq<Row>)
  {
    forall i :: 0 <= i < |rows| ==> RecordStamped(store, host, p, rows[i])
  }

  /** The loop writes only `electricity`; without Tesla it writes nothing. */
  lemma {:induction false} ImportRowsWritesOnlyElectricity(host: Host, p: Provider, rows: seq<Row>, store: Store)
    ensures forall t :: t in store && t != "electricity" ==> ImportRows(host, p, rows, store).1[t] == store[t]
    ensures p != Tesla ==> ImportRows(host, p, rows, store).1 == store
    decreases |rows|
  {
    if |rows| > 0 {
      var first := ImportRow(host, p, rows[0], store);
      RegisteredRecordsFit(host, p, rows[0]);
      if first.0 == Succeeded {
        var (table, data) := Target(host, p, rows[0]).value;
        if Inert(table, data) {
          InertReconcile(store, table, data);
        }
      }
      ImportRowsWritesOnlyElectricity(host, p, rows[1..], first.1);
    }
  }

  /** After the loop, every well-keyed record the rows produce has its time stored. */
  lemma {:induction false} ImportRowsStampsEveryRecord(host: Host, p: Provider, rows: seq<Row>, store: Store)
    requires IdsPositive(store)
    ensures IdsPositive(ImportRows(host, p, rows, store).1)
    ensures AllStamped(ImportRows(host, p, rows, store).1, host, p, rows)
    decreases |rows|
  {
    if |rows| > 0 {
      var first := ImportRow(host, p, rows[0], store);
      if first.0 == Succeeded {
        var (table, data) := Target(host, p, rows[0]).value;
        ReconcileKeepsStamps(store, table, data);
        if WellKeyed(table, data) {
          ReconcileStamps(store, table, data);
        }
      }
      var after := ImportRows(host, p, rows[1..], first.1);
      ImportRowsStampsEveryRecord(host, p, rows[1..], first.1);
      ImportRowsKeepsStamps(host, p, rows[1..], first.1);
      assert RecordStamped(after.1, host, p, rows[0]);
      forall i | 0 < i < |rows|
        ensures RecordStamped(after.1, host, p, rows[i])
      {
        assert rows[i] == rows[1..][i - 1];
      }
    }
  }

  /** The loop never loses a stored time. */
  lemma {:induction false} ImportRowsKeepsStamps(host: Host, p: Provider, rows: seq<Row>, store: Store)
    requires IdsPositive(store)
    ensures forall t, v :: Stamped(store, t, v) ==> Stamped(ImportRows(host, p, rows, store).1, t, v)
    decreases |rows|
  {
    if |rows| > 0 {
      var first := ImportRow(host, p, rows[0], store);
      if first.0 == Succeeded {
        ReconcileKeepsStamps(store, Target(host, p, rows[0]).value.0, Target(host, p, rows[0]).value.1);
      }
      ImportRowsKeepsStamps(host, p, rows[1..], first.1);
    }
  }

  /** A loop over rows whose records are all stored already adds no row. */
  lemma {:induction false} StampedImportRowsKeepCounts(host: Host, p: Provider, rows: seq<Row>, store: Store)
    requires IdsPositive(store) && AllStamped(store, host, p, rows)
    ensures forall t :: t in store ==> |ImportRows(host, p, rows, store).1[t]| == |store[t]|
    decreases |rows|
  {
    if |rows| > 0 {
      var first := ImportRow(host, p, rows[0], store);
      RegisteredRecordsFit(host, p, rows[0]);
      if first.0 == Succeeded {
        var (table, data) := Target(host, p, rows[0]).value;
        ReconcileKeepsStamps(store, table, data);
        if Inert(table, data) {
          InertReconcile(store, table, data);
        } else {
          StampedReconcileKeepsCounts(store, table, data);
        }
      }
      forall i | 0 <= i < |rows[1..]|
        ensures RecordStamped(first.1, host, p, rows[1..][i])
      {
        assert rows[1..][i] == rows[i + 1];
        assert RecordStamped(store, host, p, rows[i + 1]);
      }
      StampedImportRowsKeepCounts(host, p, rows[1..], first.1);
    }
  }

  // ---------------------------------------------------------------- import

  /** Only `electricity` is ever written, and only a file handled by the Tesla
      importer writes at all: a PG&E or SFCU import leaves the store unchanged. */
  lemma ImportWritesOnlyElectricity(host: Host, content: string, provider: string, store: Store)
    ensures forall t :: t in store && t != "electricity" ==> Import(host, content, provider, store).1[t] == store[t]
    ensures SelectImporter(provider, Rows(content)) != Some(Tesla) ==> Import(host, content, provider, store).1 == store
  {
    var rows := Rows(content);
    if |rows| > 0 && SelectImporter(provider, rows).Some? {
      ImportRowsWritesOnlyElectricity(host, SelectImporter(provider, rows).value, rows, store);
    }
  }

  /** A mapped Tesla reading has a stored row carrying its ISO time. */
  predicate ReadingStored(store: Store, host: Host, row: Row)
    requires "electricity" in store
  {
    TeslaImporter.MapRow(host, row).Tagged? ==>
      exists j :: 0 <= j < |store["electricity"]|
                  && Column(store["electricity"][j], "time") == TeslaImporter.MapRow(host, row).data["time"]
  }

  /** The Tesla loop stores the ISO time of every reading it maps, as an
      inserted row or as the row it updated. */
  lemma TeslaRowsStoreEveryReading(host: Host, rows: seq<Row>, store: Store)
    requires IdsPositive(store) && "electricity" in store
    ensures "electricity" in ImportRows(host, Tesla, rows, store).1
    ensures forall i :: 0 <= i < |rows| ==> ReadingStored(ImportRows(host, Tesla, rows, store).1, host, rows[i])
  {
    var after := ImportRows(host, Tesla, rows, store).1;
    ImportRowsStampsEveryRecord(host, Tesla, rows, store);
    forall i | 0 <= i < |rows|
      ensures ReadingStored(after, host, rows[i])
    {
      if TeslaImporter.MapRow(host, rows[i]).Tagged? {
        TeslaRecordsWellKeyed(host, rows[i]);
        var (table, data) := Target(host, Tesla, rows[i]).value;
        assert RecordStamped(after, host, Tesla, rows[i]);
        assert Stamped(after, table, Field(data, "time"));
      }
    }
  }

  /** A Tesla import stores the ISO time of every reading it maps. */
  lemma TeslaImportStoresEveryReading(host: Host, content: string, provider: string, store: Store)
    requires IdsPositive(store) && "electricity" in store
    requires |Rows(content)| > 0 && SelectImporter(provider, Rows(content)) == Some(Tesla)
    ensures "electricity" in Import(host, content, provider, store).1
    ensures forall i :: 0 <= i < |Rows(content)| ==>
              ReadingStored(Import(host, content, provider, store).1, host, Rows(content)[i])
  {
    var rows := Rows(content);
    assert Import(host, content, provider, store).1 == ImportRows(host, Tesla, rows, store).1;
    TeslaRowsStoreEveryReading(host, rows, store);
  }

  /** Importing a file a second time reports the same result and adds no row:
      every record the first import kept is found again and updated. */
  lemma ImportTwiceKeepsRowCounts(host: Host, content: string, provider: string, store: Store)
    requires IdsPositive(store)
    ensures var first := Import(host, content, provider, store);
            var second := Import(host, content, provider, first.1);
            && second.0 == first.0
            && second.1.Keys == first.1.Keys
            && forall t :: t in first.1 ==> |second.1[t]| == |first.1[t]|
  {
    var rows := Rows(content);
    var first := Import(host, content, provider, store);
    if |rows| > 0 && SelectImporter(provider, rows).Some? {
      var p := SelectImporter(provider, rows).value;
      ImportRowsStampsEveryRecord(host, p, rows, store);
      StampedImportRowsKeepCounts(host, p, rows, first.1);
    }
  }
}

=== FILE: importer.dfy ===
/** DataImporter (src/services/data-importer.js): parse a CSV file, pick the
    importer, map every row and reconcile it into the store, and tally the
    outcome. The loop is a fold threading the store and the counters. */
module DataImporter {
  import opened Wrappers
  import opened Strings
  import Csv
  import opened Values
  import opened Store
  import opened Reconciler
  import PgeImporter
  import TeslaImporter
  import SfcuImporter

  /** The importer classes the coordinator can select. */
  datatype Provider = Pge | Tesla | Sfcu

  /** `DataImporter.importers`, in detection order. */
  const Registry: seq<Provider> := [Pge, Tesla, Sfcu]

  function Detect(p: Provider, rows: seq<Row>): bool
  {
    match p
    case Pge => PgeImporter.Detect(rows)
    case Tesla => TeslaImporter.Detect(rows)
    case Sfcu => SfcuImporter.Detect(rows)
  }

  function MapRow(host: Host, p: Provider, row: Row): Mapped
  {
    match p
    case Pge => PgeImporter.MapRow(host, row)
    case Tesla => TeslaImporter.MapRow(host, row)
    case Sfcu => SfcuImporter.MapRow(host, row)
  }

  function GetTable(p: Provider): Option<TableName>
  {
    match p
    case Pge => PgeImporter.GetTable()
    case Tesla => TeslaImporter.GetTable()
    case Sfcu => SfcuImporter.GetTable()
  }

  /** `ImporterClass.name`. */
  function ClassName(p: Provider): string
  {
    match p
    case Pge => "PgeImporter"
    case Tesla => "TeslaImporter"
    case Sfcu => "SfcuImporter"
  }

  // ---------------------------------------------------------------- parsing

  const PgeHeader := "TYPE,DATE,START TIME"

  /** Drops a PG&E preamble: when the PG&E header line starts after the first
      character, the text before it is cut away. */
  function StripPreamble(content: string): (r: string)
    ensures var i := IndexOf(content, PgeHeader);
            && (i > 0 ==> r == content[i..] && OccursAt(r, PgeHeader, 0)
                          && forall j :: 0 <= j < i ==> !OccursAt(content, PgeHeader, j))
            && (i <= 0 ==> r == content)
    ensures Contains(content, PgeHeader) && !OccursAt(content, PgeHeader, 0) ==> OccursAt(r, PgeHeader, 0)
  {
    var i := IndexOf(content, PgeHeader);
    if i > 0 then
      assert content[i..][0..|PgeHeader|] == content[i..i + |PgeHeader|];
      content[i..]
    else content
  }

  /** `CSVParser.parse(content)` with the default options, after the preamble cut. */
  function Rows(content: string): seq<Row>
  {
    var parsed := Csv.Parse(StripPreamble(content), Csv.Defaults);
    if parsed.Records? then parsed.rows else []
  }

  // ---------------------------------------------------------------- selection

  /** `options.provider`: only the three lower-case names select a class. */
  function FromOverride(provider: string): (r: Option<Provider>)
    ensures r.Some? <==> provider == "pge" || provider == "tesla" || provider == "sfcu"
    ensures r.Some? ==> provider == (match r.value case Pge => "pge" case Tesla => "tesla" case Sfcu => "sfcu")
  {
    if provider == "pge" then Some(Pge)
    else if provider == "tesla" then Some(Tesla)
    else if provider == "sfcu" then Some(Sfcu)
    else None
  }

  /** `importers.find(i => i.detect(rows))`. */
  function FirstDetected(candidates: seq<Provider>, rows: seq<Row>): (r: Option<Provider>)
    ensures r.None? <==> forall i :: 0 <= i < |candidates| ==> !Detect(candidates[i], rows)
    ensures r.Some? ==> exists i :: 0 <= i < |candidates| && candidates[i] == r.value && Detect(r.value, rows)
                                    && forall j :: 0 <= j < i ==> !Detect(candidates[j], rows)
  {
    if |candidates| == 0 then None
    else if Detect(candidates[0], rows) then Some(candidates[0])
    else
      var r := FirstDetected(candidates[1..], rows);
      assert forall i :: 0 < i < |candidates| ==> candidates[i] == candidates[1..][i - 1];
      r
  }

  /** The selected class. A non-empty `provider` is an override and never falls
      back to detection; the empty string stands for an absent option. */
  function SelectImporter(provider: string, rows: seq<Row>): (r: Option<Provider>)
    ensures provider != "" ==> (r.Some? <==> provider == "pge" || provider == "tesla" || provider == "sfcu")
    ensures provider != "" && r.Some? ==> r == FromOverride(provider)
    ensures provider == "" ==> (r.None? <==> forall p :: p in Registry ==> !Detect(p, rows))
    ensures provider == "" && r.Some? ==> Detect(r.value, rows)
    ensures provider == "" && r == Some(Sfcu) ==> !Detect(Pge, rows) && !Detect(Tesla, rows)
    ensures provider == "" && r == Some(Tesla) ==> !Detect(Pge, rows)
    ensures provider == "" && |rows| > 0 && "TYPE" in rows[0] && "START TIME" in rows[0] ==> r == Some(Pge)
  {
    if provider != "" then FromOverride(provider)
    else
      var r := FirstDetected(Registry, rows);
      assert forall p :: p in Registry ==> p == Registry[0] || p == Registry[1] || p == Registry[2];
      r
  }

  // ---------------------------------------------------------------- rows

  /** Where a mapped row is written: a `{table, data}` value is unpacked, any
      other value is the data of the class's fixed table; no table, no write. */
  function Target(host: Host, p: Provider, row: Row): (r: Option<(TableName, Fields)>)
    ensures r.Some? ==> MapRow(host, p, row).Tagged? || MapRow(host, p, row).Flat?
    ensures MapRow(host, p, row).Tagged? ==> r == Some((MapRow(host, p, row).table, MapRow(host, p, row).data))
    ensures match MapRow(host, p, row)
            case Flat(data) => (match GetTable(p) case Some(table) => r == Some((table, data)) case None => r.None?)
            case _ => true
  {
    match MapRow(host, p, row)
    case Skip => None
    case Throws => None
    case Tagged(table, data) => Some((table, data))
    case Flat(data) =>
      match GetTable(p)
      case None => None
      case Some(table) => Some((table, data))
  }

  datatype RowOutcome = Succeeded | Ignored | Failed

  /** One iteration of the import loop. Persistence never fails a row: the store
      swallows its own errors. */
  function ImportRow(host: Host, p: Provider, row: Row, store: Store): (r: (RowOutcome, Store))
    ensures r.0 == Failed <==> MapRow(host, p, row).Throws?
    ensures r.0 == Succeeded <==> Target(host, p, row).Some?
    ensures r.0 != Succeeded ==> r.1 == store
    ensures r.0 == Succeeded ==> r.1 == Reconcile(store, Target(host, p, row).value.0, Target(host, p, row).value.1)
    ensures r.1.Keys == store.Keys
  {
    if MapRow(host, p, row).Throws? then (Failed, store)
    else
      match Target(host, p, row)
      case None => (Ignored, store)
      case Some((table, data)) => (Succeeded, Reconcile(store, table, data))
  }

  datatype Tally = Tally(success: nat, errors: nat)

  /** Rows whose mapping throws. */
  function CountFailed(host: Host, p: Provider, rows: seq<Row>): (n: nat)
    ensures n <= |rows|
  {
    if |rows| == 0 then 0
    else (if MapRow(host, p, rows[0]).Throws? then 1 else 0) + CountFailed(host, p, rows[1..])
  }

  /** Rows that reach the store. */
  function CountTargeted(host: Host, p: Provider, rows: seq<Row>): (n: nat)
    ensures n <= |rows|
  {
    if |rows| == 0 then 0
    else (if Target(host, p, rows[0]).Some? then 1 else 0) + CountTargeted(host, p, rows[1..])
  }

  /** The loop over all rows: `success` counts the rows that reach the store,
      `errors` the rows whose mapping throws, and no row counts twice. */
  function ImportRows(host: Host, p: Provider, rows: seq<Row>, store: Store): (r: (Tally, Store))
    ensures r.0.success == CountTargeted(host, p, rows)
    ensures r.0.errors == CountFailed(host, p, rows)
    ensures r.0.success + r.0.errors <= |rows|
    ensures r.1.Keys == store.Keys
    decreases |rows|
  {
    if |rows| == 0 then (Tally(0, 0), store)
    else
      var first := ImportRow(host, p, rows[0], store);
      var rest := ImportRows(host, p, rows[1..], first.1);
      (Tally(rest.0.success + (if first.0 == Succeeded then 1 else 0),
             rest.0.errors + (if first.0 == Failed then 1 else 0)), rest.1)
  }

  // ---------------------------------------------------------------- import

  datatype ImportResult = ImportResult(success: nat, skipped: nat, errors: nat, message: string)

  const EmptyMessage := "File is empty or could not be parsed."
  const UnknownMessage := "Unknown file format."

  function Summary(p: Provider, tally: Tally): string
  {
    "Type: " + ClassName(p) + ". Processed: " + NatToString(tally.success) + ". Errors: " + NatToString(tally.errors)
  }

  /** `DataImporter.import(filename, content, {provider})`: the result and the
      store afterwards. No parsed rows or no selected class gives an all-zero
      result and an untouched store; otherwise every row is processed once. */
  function Import(host: Host, content: string, provider: string, store: Store): (r: (ImportResult, Store))
    ensures r.0.skipped == 0
    ensures r.0.success + r.0.errors <= |Rows(content)|
    ensures r.1.Keys == store.Keys
    ensures |Rows(content)| == 0 ==> r == (ImportResult(0, 0, 0, EmptyMessage), store)
    ensures |Rows(content)| > 0 && SelectImporter(provider, Rows(content)).None? ==>
              r == (ImportResult(0, 0, 0, UnknownMessage), store)
    ensures |Rows(content)| > 0 && SelectImporter(provider, Rows(content)).Some? ==>
              var p := SelectImporter(provider, Rows(content)).value;
              && r.0.success == CountTargeted(host, p, Rows(content))
              && r.0.errors == CountFailed(host, p, Rows(content))
              && r.0.message == Summary(p, Tally(r.0.success, r.0.errors))
              && r.1 == ImportRows(host, p, Rows(content), store).1
  {
    var rows := Rows(content);
    if |rows| == 0 then (ImportResult(0, 0, 0, EmptyMessage), store)
    else
      match SelectImporter(provider, rows)
      case None => (ImportResult(0, 0, 0, UnknownMessage), store)
      case Some(p) =>
        var (tally, after) := ImportRows(host, p, rows, store);
        (ImportResult(tally.success, 0, tally.errors, Summary(p, tally)), after)
  }
}

=== FILE: pge.dfy ===
/** PgeImporter (src/importers/energy/pge.js): PG&E interval exports, where one
    `TYPE` column tells electric rows from gas rows. */
module PgeImporter {
  import opened Wrappers
  import opened Strings
  import opened Values

  const Electric := "Electric usage"
  const Gas := "Natural gas usage"

  /** `detect`: false on no rows; true iff the first row has both `TYPE` and
      `START TIME`, or has a key that is exactly `Electric usage`. */
  function Detect(rows: seq<Row>): bool
  {
    if |rows| == 0 then false
    else
      var keys := rows[0].Keys;
      ("TYPE" in keys && "START TIME" in keys) || Electric in keys
  }

  /** `getTable`: the table is chosen per row. */
  function GetTable(): Option<TableName>
  {
    None
  }

  /** `row['TYPE'] || row['Type']`. */
  function TypeOf(row: Row): Option<string>
  {
    Or(Cell(row, "TYPE"), Cell(row, "Type"))
  }

  /** The `new Date(`${date} ${time}`)` timestamp of a row. */
  function Stamp(host: Host, date: string, time: string): Value
  {
    Time(host, Some(date + " " + time))
  }

  /** `mapRow`. Electric rows go to `electricity_grid_hourly`, gas rows to
      `gas_daily`; any other type, or a missing or empty date or start time,
      gives `null`. A date that does not parse still makes a record. */
  function MapRow(host: Host, row: Row): (r: Mapped)
    ensures r.Skip? || r.Tagged?
    ensures TypeOf(row) != Some(Electric) && TypeOf(row) != Some(Gas) ==> r == Skip
    ensures TypeOf(row) == Some(Electric) ==>
              (r.Skip? <==> !Truthy(row, "DATE") || !Truthy(row, "START TIME"))
              && (r.Tagged? ==> r == Tagged("electricity_grid_hourly", map[
                                  "timestamp" := Stamp(host, row["DATE"], row["START TIME"]),
                                  "import_kwh" := Num(OrNumber(Float(host, row, "IMPORT (kWh)"), 0.0))]))
    ensures TypeOf(row) == Some(Gas) ==>
              var date := Or(Cell(row, "Date"), Cell(row, "DATE"));
              var time := Or(Cell(row, "Start time"), Cell(row, "START TIME"));
              (r.Skip? <==> date.None? || date.value == "" || time.None? || time.value == "")
              && (r.Tagged? ==> r == Tagged("gas_daily", map[
                                  "timestamp" := Stamp(host, date.value, time.value),
                                  "usage_therms" := Num(OrNumber(Float(host, row, "Usage"),
                                                        OrNumber(Float(host, row, "USAGE (therms)"), 0.0)))]))
  {
    var kind := TypeOf(row);
    if kind == Some(Electric) then
      if !Truthy(row, "DATE") || !Truthy(row, "START TIME") then Skip
      else
        Tagged("electricity_grid_hourly", map[
          "timestamp" := Stamp(host, row["DATE"], row["START TIME"]),
          "import_kwh" := Num(OrNumber(Float(host, row, "IMPORT (kWh)"), 0.0))])
    else if kind == Some(Gas) then
      var date := Or(Cell(row, "Date"), Cell(row, "DATE"));
      var time := Or(Cell(row, "Start time"), Cell(row, "START TIME"));
      if date.None? || date.value == "" || time.None? || time.value == "" then Skip
      else
        var usage := OrNumber(Float(host, row, "Usage"), OrNumber(Float(host, row, "USAGE (therms)"), 0.0));
        Tagged("gas_daily", map["timestamp" := Stamp(host, date.value, time.value), "usage_therms" := Num(usage)])
    else Skip
  }

  /** One export can feed two tables: an electric row and a gas row with their
      date and start time filled map to different tables. */
  lemma ElectricAndGasRowsSplit(host: Host, electric: Row, gas: Row)
    requires TypeOf(electric) == Some(Electric) && Truthy(electric, "DATE") && Truthy(electric, "START TIME")
    requires TypeOf(gas) == Some(Gas) && Truthy(gas, "DATE") && Truthy(gas, "START TIME")
    ensures MapRow(host, electric).Tagged? && MapRow(host, gas).Tagged?
    ensures MapRow(host, electric).table != MapRow(host, gas).table
  {
  }

  /** `detect` reads only the first record's column names: later records and
      cell values never change its answer, and an empty file is never detected. */
  lemma DetectReadsHeader(rows: seq<Row>, other: seq<Row>)
    requires |rows| > 0 && |other| > 0 && rows[0].Keys == other[0].Keys
    ensures Detect(rows) == Detect(other)
    ensures !Detect([])
  {
  }

  /** `getTable` is null and never consulted: every record names its own table. */
  lemma RecordsNameTheirTable(host: Host, row: Row)
    ensures GetTable().None? && !MapRow(host, row).Flat?
  {
  }
}

=== FILE: reconciler.dfy ===
/** `findExisting`, `update` and `insert` of src/services/data-importer.js, and
    the find-then-update-or-insert step the import loop runs for each record. */
module Reconciler {
  import opened Wrappers
  import opened Values
  import opened Store

  /** The only tables `findExisting` and `insert` know. */
  predicate KnownTable(table: string)
  {
    table == "electricity" || table == "gas" || table == "transactions"
  }

  /** The identity key of a table: `time`, or `date`/`description`/`amount`. */
  function IdentityColumns(table: string): (r: seq<string>)
    ensures KnownTable(table) <==> |r| > 0
  {
    if table == "electricity" || table == "gas" then ["time"]
    else if table == "transactions" then ["date", "description", "amount"]
    else []
  }

  /** The WHERE clause `findExisting` binds for a record. */
  function Identity(table: string, data: Fields): (r: seq<Binding>)
    ensures |r| == |IdentityColumns(table)|
    ensures forall i :: 0 <= i < |r| ==> r[i] == (IdentityColumns(table)[i], Field(data, IdentityColumns(table)[i]))
  {
    var cols := IdentityColumns(table);
    seq(|cols|, i requires 0 <= i < |cols| => (cols[i], Field(data, cols[i])))
  }

  /** `findExisting`: the id of the first stored row agreeing with the record on
      the table's identity key; none for any other table, a missing key value or
      a missing table. */
  function FindExisting(store: Store, table: string, data: Fields): (r: Option<int>)
    ensures !KnownTable(table) ==> r.None?
    ensures r.Some? ==> table in store
                        && exists i :: 0 <= i < |store[table]| && store[table][i].id == r.value
                                       && Matches(store[table][i], Identity(table, data))
    ensures KnownTable(table) && table in store && Bindable(Identity(table, data))
            && (exists i :: 0 <= i < |store[table]| && Matches(store[table][i], Identity(table, data)))
            ==> r.Some?
  {
    if KnownTable(table) then SelectId(store, table, Identity(table, data)) else None
  }

  /** The keys `update` writes: every key other than `time` and `id` whose value
      is neither `null` nor `undefined`. */
  function UpdateKeys(data: Fields): (r: set<string>)
    ensures forall k :: k in r <==> k in data && k != "time" && k != "id" && data[k] != Null && data[k] != Undefined
  {
    set k | k in data && k != "time" && k != "id" && data[k] != Null && data[k] != Undefined
  }

  /** `update`: a partial update of the rows with id `id`. It writes exactly the
      `UpdateKeys`, so `time`, ids and null fields are never written, and it is a
      no-op when there is nothing to write. */
  function Update(store: Store, table: string, id: int, data: Fields): (r: Store)
    ensures r.Keys == store.Keys
    ensures forall t :: t in store ==> |r[t]| == |store[t]|
    ensures forall t :: t in store && t != table ==> r[t] == store[t]
    ensures UpdateKeys(data) == {} ==> r == store
    ensures table in store && UpdateKeys(data) != {} ==>
              forall i :: 0 <= i < |store[table]| ==>
                var before := store[table][i];
                var after := r[table][i];
                && after.id == before.id
                && Column(after, "time") == Column(before, "time")
                && (forall k :: k !in UpdateKeys(data) ==> Column(after, k) == Column(before, k))
                && (before.id == id ==> forall k :: k in UpdateKeys(data) ==> Column(after, k) == Stored(data[k]))
                && (before.id != id ==> after == before)
  {
    var keys := UpdateKeys(data);
    if keys == {} then store
    else
      var assignments := map k | k in keys :: data[k];
      var r := UpdateById(store, table, id, assignments);
      r
  }

  /** `data.x !== null ? data.x : 0`. */
  function ZeroIfNull(v: Value): Value
  {
    if v == Null then Num(0.0) else v
  }

  /** The column list of the `INSERT` statement of each known table. */
  function InsertColumns(table: string): (r: seq<string>)
    ensures KnownTable(table) <==> |r| > 0
    ensures |IdentityColumns(table)| <= |r| && r[..|IdentityColumns(table)|] == IdentityColumns(table)
    ensures forall j, k :: 0 <= j < k < |r| ==> r[j] != r[k]
  {
    if table == "electricity" then ["time", "solar", "consumption", "import"]
    else if table == "gas" then ["time", "import"]
    else if table == "transactions" then ["date", "description", "amount", "account_id"]
    else []
  }

  /** The parameters `insert` binds for a table it knows: each column gets the
      record's own field, except that the three electricity energy columns
      read a `null` as 0 (an `undefined` is passed on as it is). */
  function InsertBindings(table: string, data: Fields): (r: Option<seq<Binding>>)
    ensures r.Some? <==> KnownTable(table)
    ensures r.Some? ==> |r.value| == |InsertColumns(table)|
                        && forall j :: 0 <= j < |r.value| ==> r.value[j].0 == InsertColumns(table)[j]
    ensures r.Some? ==> forall j :: 0 <= j < |r.value| ==>
              r.value[j].1 == (if table == "electricity" && r.value[j].0 != "time" then ZeroIfNull(Field(data, r.value[j].0))
                               else Field(data, r.value[j].0))
    ensures r.Some? && table == "electricity" ==> forall j :: 0 <= j < |r.value| && r.value[j].0 != "time" ==> r.value[j].1 != Null
    ensures r.Some? ==> forall i :: 0 <= i < |IdentityColumns(table)| ==>
              i < |r.value| && r.value[i] == (IdentityColumns(table)[i], Field(data, IdentityColumns(table)[i]))
    ensures r.Some? ==> forall j, k :: 0 <= j < k < |r.value| ==> r.value[j].0 != r.value[k].0
  {
    if table == "electricity" then
      Some([("time", Field(data, "time")), ("solar", ZeroIfNull(Field(data, "solar"))),
            ("consumption", ZeroIfNull(Field(data, "consumption"))), ("import", ZeroIfNull(Field(data, "import")))])
    else if table == "gas" then
      Some([("time", Field(data, "time")), ("import", Field(data, "import"))])
    else if table == "transactions" then
      Some([("date", Field(data, "date")), ("description", Field(data, "description")),
            ("amount", Field(data, "amount")), ("account_id", Field(data, "account_id"))])
    else None
  }

  /** `insert` adds nothing for this record: unknown table, a parameter that is
      `undefined`, or a missing table. */
  predicate InsertIsNoOp(store: Store, table: string, data: Fields)
  {
    var b := InsertBindings(table, data);
    b.None? || !Bindable(b.value) || table !in store
  }

  /** `insert`: appends one row to a known table, or changes nothing. */
  function Insert(store: Store, table: string, data: Fields): (r: Store)
    ensures r.Keys == store.Keys
    ensures forall t :: t in store && t != table ==> r[t] == store[t]
    ensures InsertIsNoOp(store, table, data) <==> r == store
    ensures !InsertIsNoOp(store, table, data) ==>
              r[table] == store[table] + [StoredRow(NextId(store[table]), ColumnsOf(InsertBindings(table, data).value))]
  {
    match InsertBindings(table, data)
    case None => store
    case Some(b) =>
      var r := InsertRow(store, table, b);
      assert !InsertIsNoOp(store, table, data) ==> |r[table]| == |store[table]| + 1;
      r
  }

  /** The body of the import loop after mapping: update when `findExisting`
      returns a truthy id, insert otherwise. */
  function Reconcile(store: Store, table: string, data: Fields): (r: Store)
    ensures r.Keys == store.Keys
    ensures forall t :: t in store && (t != table || !KnownTable(t)) ==> r[t] == store[t]
    ensures forall t :: t in store ==> |store[t]| <= |r[t]| <= |store[t]| + 1
  {
    var existing := FindExisting(store, table, data);
    if existing.Some? && existing.value != 0 then Update(store, table, existing.value, data)
    else Insert(store, table, data)
  }

  /** `findExisting` on a record whose whole identity key binds and matches
      a stored row returns the id of the first such row. */
  lemma FindsFirstMatch(store: Store, table: string, data: Fields)
    requires KnownTable(table) && table in store && Bindable(Identity(table, data))
    requires exists i :: 0 <= i < |store[table]| && Matches(store[table][i], Identity(table, data))
    ensures exists i :: 0 <= i < |store[table]| && Matches(store[table][i], Identity(table, data))
                        && (forall j :: 0 <= j < i ==> !Matches(store[table][j], Identity(table, data)))
                        && FindExisting(store, table, data) == Some(store[table][i].id)
  {
    assert FindExisting(store, table, data) == FirstMatch(store[table], Identity(table, data));
  }

  /** A record of a known table that agrees with a stored row on its whole
      identity key (`time`, or `date`, `description` and `amount`) updates the
      row `findExisting` returns (the first such row, by `FindsFirstMatch`)
      instead of inserting: no table grows. */
  lemma MatchedReconcileUpdates(store: Store, table: string, data: Fields)
    requires KnownTable(table) && table in store && Bindable(Identity(table, data))
    requires forall i :: 0 <= i < |store[table]| ==> store[table][i].id > 0
    requires exists i :: 0 <= i < |store[table]| && Matches(store[table][i], Identity(table, data))
    ensures FindExisting(store, table, data).Some?
    ensures Reconcile(store, table, data) == Update(store, table, FindExisting(store, table, data).value, data)
    ensures forall t :: t in store ==> |Reconcile(store, table, data)[t]| == |store[t]|
  {
    var existing := FindExisting(store, table, data);
    var i :| 0 <= i < |store[table]| && store[table][i].id == existing.value;
    assert existing.value > 0;
  }

  /** A record of a known table that no stored row matches on its identity key
      is inserted: its table gains exactly the row `insert` builds, at the end. */
  lemma UnmatchedReconcileInserts(store: Store, table: string, data: Fields)
    requires KnownTable(table) && table in store && Bindable(InsertBindings(table, data).value)
    requires forall i :: 0 <= i < |store[table]| ==> !Matches(store[table][i], Identity(table, data))
    ensures Reconcile(store, table, data) == Insert(store, table, data)
    ensures Reconcile(store, table, data)[table]
            == store[table] + [StoredRow(NextId(store[table]), ColumnsOf(InsertBindings(table, data).value))]
  {
    assert FindExisting(store, table, data).None?;
  }

  /** `if (existingId)` is false for id 0: a record whose first matching row has
      id 0 is inserted, not used to update that row. */
  lemma ZeroIdMatchInserts(store: Store, table: string, data: Fields)
    requires KnownTable(table) && table in store && Bindable(Identity(table, data))
    requires Bindable(InsertBindings(table, data).value)
    requires exists i :: 0 <= i < |store[table]| && Matches(store[table][i], Identity(table, data)) && store[table][i].id == 0
                         && forall j :: 0 <= j < i ==> !Matches(store[table][j], Identity(table, data))
    ensures Reconcile(store, table, data) == Insert(store, table, data)
    ensures Reconcile(store, table, data)[table]
            == store[table] + [StoredRow(NextId(store[table]), ColumnsOf(InsertBindings(table, data).value))]
  {
    var i :| 0 <= i < |store[table]| && Matches(store[table][i], Identity(table, data)) && store[table][i].id == 0
             && forall j :: 0 <= j < i ==> !Matches(store[table][j], Identity(table, data));
    assert FindExisting(store, table, data) == FirstMatch(store[table], Identity(table, data));
    FirstMatchAt(store[table], Identity(table, data), i);
  }
}

=== FILE: sfcu.dfy ===
/** SfcuImporter (src/importers/finance/sfcu.js): Stanford FCU account history,
    one transaction per row with separate debit and credit columns. */
module SfcuImporter {
  import opened Wrappers
  import opened Strings
  import opened Values

  /** `detect`: the first row has `Account Number`, `Post Date` and `Description`. */
  function Detect(rows: seq<Row>): bool
  {
    if |rows| == 0 then false
    else
      var keys := rows[0].Keys;
      "Account Number" in keys && "Post Date" in keys && "Description" in keys
  }

  /** `getTable`. */
  function GetTable(): Option<TableName>
  {
    Some("transactions")
  }

  /** The signed amount: a debit is negative and wins over a credit; neither gives 0. */
  function Amount(host: Host, row: Row): (r: Value)
    ensures Truthy(row, "Debit") ==>
              r == (match host.parseFloat(row["Debit"]) case Some(x) => Num(-x) case None => NaN)
    ensures !Truthy(row, "Debit") && Truthy(row, "Credit") ==> r == NumberValue(host.parseFloat(row["Credit"]))
    ensures !Truthy(row, "Debit") && !Truthy(row, "Credit") ==> r == Num(0.0)
  {
    if Truthy(row, "Debit") then
      match host.parseFloat(row["Debit"])
      case Some(x) => Num(-1.0 * x)
      case None => NaN
    else if Truthy(row, "Credit") then NumberValue(host.parseFloat(row["Credit"]))
    else Num(0.0)
  }

  /** `mapRow`: `null` without a post date; otherwise a `transactions` record for
      account 1 with the description copied as it is. */
  function MapRow(host: Host, row: Row): (r: Mapped)
    ensures r.Skip? <==> !Truthy(row, "Post Date")
    ensures r.Tagged? ==>
              && r.table == "transactions"
              && r.data.Keys == {"timestamp", "description", "amount", "account_id"}
              && r.data["timestamp"] == Time(host, Some(row["Post Date"]))
              && r.data["description"] == CellValue(row, "Description")
              && r.data["amount"] == Amount(host, row)
              && r.data["account_id"] == Num(1.0)
    ensures !r.Throws? && !r.Flat?
  {
    if !Truthy(row, "Post Date") then Skip
    else
      Tagged("transactions", map[
        "timestamp" := Time(host, Some(row["Post Date"])),
        "description" := CellValue(row, "Description"),
        "amount" := Amount(host, row),
        "account_id" := Num(1.0)])
  }

  /** `detect` reads only the first record's column names: later records and
      cell values never change its answer, and an empty file is never detected. */
  lemma DetectReadsHeader(rows: seq<Row>, other: seq<Row>)
    requires |rows| > 0 && |other| > 0 && rows[0].Keys == other[0].Keys
    ensures Detect(rows) == Detect(other)
    ensures !Detect([])
  {
  }

  /** Every record names the table `getTable` reports, `transactions`. */
  lemma RecordsGoToGetTable(host: Host, row: Row)
    ensures GetTable() == Some("transactions")
    ensures MapRow(host, row).Tagged? ==> MapRow(host, row).table == GetTable().value
  {
  }
}

=== FILE: store.dfy ===
/** The relational store as the import pipeline sees it through
    `dbService.query`: named tables of rows with an integer id. A statement that
    fails (a missing table, a parameter sql.js cannot bind) is swallowed by
    `query`, so it reads as an empty result and changes nothing. */
module Store {
  import opened Wrappers
  import opened Values

  datatype StoredRow = StoredRow(id: int, cols: map<string, Value>)

  /** Table name to rows, in rowid order. */
  type Store = map<string, seq<StoredRow>>

  /** A column name with the parameter bound to it. */
  type Binding = (string, Value)

  /** What SQLite keeps of a bound number: `NaN` is bound as NULL. */
  function Stored(v: Value): (r: Value)
    ensures r != NaN
    ensures v != NaN ==> r == v
    ensures v == NaN ==> r == Null
  {
    if v == NaN then Null else v
  }

  /** A column of a row; a column never written is NULL. */
  function Column(row: StoredRow, c: string): Value
  {
    if c in row.cols then row.cols[c] else Null
  }

  /** `column = ?`: true only for a non-NULL parameter equal to the stored value. */
  predicate SqlEquals(stored: Value, param: Value)
  {
    (param.Num? || param.Text?) && stored == param
  }

  /** sql.js binds strings, numbers and null; binding `undefined` throws. */
  predicate Bindable(bindings: seq<Binding>)
  {
    forall i :: 0 <= i < |bindings| ==> bindings[i].1 != Undefined
  }

  /** A row satisfies every `column = ?` of a WHERE clause. */
  predicate Matches(row: StoredRow, conds: seq<Binding>)
  {
    forall i :: 0 <= i < |conds| ==> SqlEquals(Column(row, conds[i].0), conds[i].1)
  }

  /** The id of the first row satisfying `conds`. */
  function FirstMatch(rows: seq<StoredRow>, conds: seq<Binding>): (r: Option<int>)
    ensures r.None? <==> forall i :: 0 <= i < |rows| ==> !Matches(rows[i], conds)
    ensures r.Some? ==> exists i :: 0 <= i < |rows| && Matches(rows[i], conds) && rows[i].id == r.value
                          && forall j :: 0 <= j < i ==> !Matches(rows[j], conds)
  {
    if |rows| == 0 then None
    else if Matches(rows[0], conds) then Some(rows[0].id)
    else
      var r := FirstMatch(rows[1..], conds);
      assert forall i :: 0 < i < |rows| ==> rows[i] == rows[1..][i - 1];
      r
  }

  /** The first matching row decides the result. */
  lemma {:induction false} FirstMatchAt(rows: seq<StoredRow>, conds: seq<Binding>, i: nat)
    requires i < |rows| && Matches(rows[i], conds) && forall j :: 0 <= j < i ==> !Matches(rows[j], conds)
    ensures FirstMatch(rows, conds) == Some(rows[i].id)
  {
    if i > 0 {
      assert !Matches(rows[0], conds);
      FirstMatchAt(rows[1..], conds, i - 1);
    }
  }

  /** `SELECT id FROM table WHERE c1 = ? AND ...` and `result[0].id`: None when the
      statement fails or finds nothing. */
  function SelectId(store: Store, table: string, conds: seq<Binding>): (r: Option<int>)
    ensures r.Some? ==> Bindable(conds) && table in store
                        && exists i :: 0 <= i < |store[table]| && Matches(store[table][i], conds) && store[table][i].id == r.value
    ensures r.None? <==> !Bindable(conds) || table !in store
                         || forall i :: 0 <= i < |store[table]| ==> !Matches(store[table][i], conds)
  {
    if !Bindable(conds) || table !in store then None
    else FirstMatch(store[table], conds)
  }

  /** A row's columns after `SET k = ?` for every key of `assignments`. */
  function Merge(cols: map<string, Value>, assignments: Fields): (r: map<string, Value>)
    ensures r.Keys == cols.Keys + assignments.Keys
    ensures forall k :: k in assignments ==> r[k] == Stored(assignments[k])
    ensures forall k :: k in cols && k !in assignments ==> r[k] == cols[k]
  {
    map k | k in cols.Keys + assignments.Keys :: if k in assignments then Stored(assignments[k]) else cols[k]
  }

  /** `UPDATE table SET ... WHERE id = ?`: every row with that id gets the
      assignments; no row is added or removed and no id changes. */
  function UpdateById(store: Store, table: string, id: int, assignments: Fields): (r: Store)
    ensures r.Keys == store.Keys
    ensures forall t :: t in store && t != table ==> r[t] == store[t]
    ensures forall t :: t in store ==> |r[t]| == |store[t]|
    ensures table !in store || (exists k :: k in assignments && assignments[k] == Undefined) ==> r == store
    ensures table in store ==> forall i :: 0 <= i < |store[table]| ==> r[table][i].id == store[table][i].id
    ensures table in store && !(exists k :: k in assignments && assignments[k] == Undefined) ==>
              forall i :: 0 <= i < |store[table]| ==>
                r[table][i] == (if store[table][i].id == id then StoredRow(id, Merge(store[table][i].cols, assignments))
                                else store[table][i])
  {
    if table !in store || exists k :: k in assignments && assignments[k] == Undefined then store
    else
      var rows := store[table];
      store[table := seq(|rows|, i requires 0 <= i < |rows| =>
                            if rows[i].id == id then StoredRow(id, Merge(rows[i].cols, assignments)) else rows[i])]
  }

  /** `r` has exactly the names bound as keys. */
  ghost predicate KeysFor(bindings: seq<Binding>, r: map<string, Value>)
  {
    forall k :: k in r <==> exists i :: 0 <= i < |bindings| && bindings[i].0 == k
  }

  /** Each bound name holds the value of its last binding. */
  ghost predicate LastWins(bindings: seq<Binding>, r: map<string, Value>)
  {
    forall i :: 0 <= i < |bindings| && (forall j :: i < j < |bindings| ==> bindings[j].0 != bindings[i].0)
      ==> bindings[i].0 in r && r[bindings[i].0] == Stored(bindings[i].1)
  }

  /** The columns of an inserted row: exactly the bound names; a later binding
      of the same column wins. */
  function ColumnsOf(bindings: seq<Binding>): (r: map<string, Value>)
    ensures KeysFor(bindings, r)
    ensures LastWins(bindings, r)
  {
    if |bindings| == 0 then map[]
    else
      var n := |bindings| - 1;
      var front := ColumnsOf(bindings[..n]);
      var r := front[bindings[n].0 := Stored(bindings[n].1)];
      KeysStep(bindings, front);
      ValuesStep(bindings, front);
      r
  }

  /** One more binding overrides its name and leaves the others' last values. */
  lemma ValuesStep(bindings: seq<Binding>, front: map<string, Value>)
    requires |bindings| > 0
    requires LastWins(bindings[..|bindings| - 1], front)
    ensures LastWins(bindings, front[bindings[|bindings| - 1].0 := Stored(bindings[|bindings| - 1].1)])
  {
    var n := |bindings| - 1;
    assert forall i :: 0 <= i < n ==> bindings[i] == bindings[..n][i];
  }

  /** One more binding adds its name to the keys of all the earlier ones. */
  lemma KeysStep(bindings: seq<Binding>, front: map<string, Value>)
    requires |bindings| > 0
    requires KeysFor(bindings[..|bindings| - 1], front)
    ensures KeysFor(bindings, front[bindings[|bindings| - 1].0 := Stored(bindings[|bindings| - 1].1)])
  {
    var n := |bindings| - 1;
    var p := bindings[..n];
    var r := front[bindings[n].0 := Stored(bindings[n].1)];
    forall k | k in r
      ensures exists i :: 0 <= i < |bindings| && bindings[i].0 == k
    {
      if k == bindings[n].0 {
        assert bindings[n].0 == k;
      } else {
        var i :| 0 <= i < |p| && p[i].0 == k;
        assert bindings[i] == p[i];
      }
    }
    forall k | exists i :: 0 <= i < |bindings| && bindings[i].0 == k
      ensures k in r
    {
      var i :| 0 <= i < |bindings| && bindings[i].0 == k;
      if i < n {
        assert p[i] == bindings[i];
      }
    }
  }

  /** The rowid SQLite gives a new row: 1 in an empty table, else one more than the largest. */
  function NextId(rows: seq<StoredRow>): (r: int)
    ensures forall i :: 0 <= i < |rows| ==> rows[i].id < r
    ensures |rows| == 0 ==> r == 1
    ensures |rows| > 0 ==> exists i :: 0 <= i < |rows| && r == rows[i].id + 1
    ensures (forall i :: 0 <= i < |rows| ==> rows[i].id > 0) ==> r > 0
  {
    if |rows| <= 1 then (if |rows| == 0 then 1 else rows[0].id + 1)
    else
      var rest := NextId(rows[1..]);
      assert forall i :: 0 < i < |rows| ==> rows[i] == rows[1..][i - 1];
      if rows[0].id + 1 > rest then rows[0].id + 1 else rest
  }

  /** `INSERT INTO table (c1, ...) VALUES (?, ...)`: one new row at the end, or
      nothing when the statement fails. */
  function InsertRow(store: Store, table: string, bindings: seq<Binding>): (r: Store)
    ensures r.Keys == store.Keys
    ensures forall t :: t in store && t != table ==> r[t] == store[t]
    ensures !Bindable(bindings) || table !in store ==> r == store
    ensures Bindable(bindings) && table in store ==>
              r[table] == store[table] + [StoredRow(NextId(store[table]), ColumnsOf(bindings))]
  {
    if !Bindable(bindings) || table !in store then store
    else store[table := store[table] + [StoredRow(NextId(store[table]), ColumnsOf(bindings))]]
  }
}

=== FILE: strings.dfy ===
/** Character-level string operations that the tokenizer, the mappers and the
    coordinator rely on: `split`, `indexOf`, `includes`, `trim`, `replace`. */
module Strings {

  /** A parsed CSV record: column name to cell text. */
  type Row = map<string, string>

  /** Concatenation regrouped to the right. */
  lemma Associate<T>(p: seq<T>, e: seq<T>, q: seq<T>, r: seq<T>)
    ensures p + e + q + r == p + (e + q + r)
  {
  }

  /** Number of occurrences of `c` in `s`. */
  function Count(s: string, c: char): (n: nat)
    ensures n <= |s|
    ensures n == 0 <==> c !in s
  {
    if |s| == 0 then 0
    else
      assert c in s <==> s[0] == c || c in s[1..];
      (if s[0] == c then 1 else 0) + Count(s[1..], c)
  }

  /** `s.split(sep)` for a one-character separator: always at least one piece,
      one more piece than there are separators, and no piece holds `sep`. */
  function Split(s: string, sep: char): (r: seq<string>)
    ensures |r| == Count(s, sep) + 1
    ensures forall i :: 0 <= i < |r| ==> sep !in r[i]
  {
    if |s| == 0 then [""]
    else
      var rest := Split(s[1..], sep);
      if s[0] == sep then [""] + rest
      else [[s[0]] + rest[0]] + rest[1..]
  }

  /** `parts.join(sep)`. */
  function Join(parts: seq<string>, sep: char): string
  {
    if |parts| == 0 then ""
    else if |parts| == 1 then parts[0]
    else parts[0] + [sep] + Join(parts[1..], sep)
  }

  lemma JoinCons(head: string, tail: seq<string>, sep: char)
    requires |tail| > 0
    ensures Join([head] + tail, sep) == head + [sep] + Join(tail, sep)
  {
    assert ([head] + tail)[1..] == tail;
  }

  /** Joining the pieces of a split restores the string. */
  lemma {:induction false} JoinSplit(s: string, sep: char)
    ensures Join(Split(s, sep), sep) == s
  {
    if |s| > 0 {
      var rest := Split(s[1..], sep);
      JoinSplit(s[1..], sep);
      if s[0] == sep {
        JoinCons("", rest, sep);
        assert s == [sep] + s[1..];
      } else if |rest| == 1 {
        assert s == [s[0]] + s[1..];
      } else {
        JoinCons(rest[0], rest[1..], sep);
        assert rest == [rest[0]] + rest[1..];
        JoinCons([s[0]] + rest[0], rest[1..], sep);
        assert s == [s[0]] + s[1..];
      }
    }
  }

  /** A string without the separator splits into itself. */
  lemma {:induction false} SplitWithoutSeparator(s: string, sep: char)
    requires sep !in s
    ensures Split(s, sep) == [s]
  {
    if |s| > 0 {
      assert sep !in s[1..];
      SplitWithoutSeparator(s[1..], sep);
      assert s == [s[0]] + s[1..];
    }
  }

  lemma {:induction false} SplitAfterPiece(a: string, b: string, sep: char)
    requires sep !in a
    ensures Split(a + [sep] + b, sep) == [a] + Split(b, sep)
  {
    var s := a + [sep] + b;
    if |a| == 0 {
      assert s[1..] == b;
    } else {
      assert s[1..] == a[1..] + [sep] + b;
      assert sep !in a[1..];
      SplitAfterPiece(a[1..], b, sep);
      assert [s[0]] + a[1..] == a;
    }
  }

  /** Splitting a join of separator-free pieces returns the pieces. */
  lemma {:induction false} SplitJoin(parts: seq<string>, sep: char)
    requires |parts| > 0
    requires forall i :: 0 <= i < |parts| ==> sep !in parts[i]
    ensures Split(Join(parts, sep), sep) == parts
  {
    if |parts| == 1 {
      SplitWithoutSeparator(parts[0], sep);
    } else {
      SplitJoin(parts[1..], sep);
      SplitAfterPiece(parts[0], Join(parts[1..], sep), sep);
      assert parts == [parts[0]] + parts[1..];
    }
  }

  /** `s` holds `p` starting at index `j`. */
  predicate OccursAt(s: string, p: string, j: int)
  {
    0 <= j && j + |p| <= |s| && s[j..j + |p|] == p
  }

  /** `s.includes(p)`. */
  predicate Contains(s: string, p: string)
  {
    exists j | 0 <= j <= |s| - |p| :: OccursAt(s, p, j)
  }

  function IndexOfFrom(s: string, p: string, from: nat): (r: int)
    requires from <= |s|
    ensures r == -1 || (from <= r && OccursAt(s, p, r))
    ensures r == -1 ==> forall j :: from <= j ==> !OccursAt(s, p, j)
    ensures r != -1 ==> forall j :: from <= j < r ==> !OccursAt(s, p, j)
    decreases |s| - from
  {
    if OccursAt(s, p, from) then from
    else if from + |p| >= |s| then -1
    else IndexOfFrom(s, p, from + 1)
  }

  /** `s.indexOf(p)`: the first index at which `p` occurs, or -1 when it does not. */
  function IndexOf(s: string, p: string): (r: int)
    ensures r == -1 <==> !Contains(s, p)
    ensures r != -1 ==> OccursAt(s, p, r) && forall j :: 0 <= j < r ==> !OccursAt(s, p, j)
  {
    IndexOfFrom(s, p, 0)
  }

  /** The characters `String.prototype.trim` removes: the ECMAScript
      WhiteSpace and LineTerminator code points. */
  predicate IsWhitespace(c: char)
  {
    || c == '\t' || c == '\n' || c == '\r' || c == '\U{000B}' || c == '\U{000C}'
    || c == ' ' || c == '\U{00A0}' || c == '\U{1680}'
    || ('\U{2000}' <= c <= '\U{200A}')
    || c == '\U{2028}' || c == '\U{2029}' || c == '\U{202F}' || c == '\U{205F}'
    || c == '\U{3000}' || c == '\U{FEFF}'
  }

  /** Every character of `t` is white space. */
  predicate AllWhitespace(t: string)
  {
    forall i :: 0 <= i < |t| ==> IsWhitespace(t[i])
  }

  /** The first index at or after `from` whose character is not white space, or `|s|`. */
  function SkipLeading(s: string, from: nat): (r: nat)
    requires from <= |s|
    ensures from <= r <= |s|
    ensures forall i :: from <= i < r ==> IsWhitespace(s[i])
    ensures r < |s| ==> !IsWhitespace(s[r])
    decreases |s| - from
  {
    if from < |s| && IsWhitespace(s[from]) then SkipLeading(s, from + 1) else from
  }

  /** The end of `s[lo..hi]` once trailing white space is dropped. */
  function SkipTrailing(s: string, lo: nat, hi: nat): (r: nat)
    requires lo <= hi <= |s|
    ensures lo <= r <= hi
    ensures forall i :: r <= i < hi ==> IsWhitespace(s[i])
    ensures r > lo ==> !IsWhitespace(s[r - 1])
    decreases hi
  {
    if hi > lo && IsWhitespace(s[hi - 1]) then SkipTrailing(s, lo, hi - 1) else hi
  }

  /** `r` sits at `k` in `s`, and everything before and after it is white space. */
  predicate TrimmedAt(s: string, r: string, k: int)
  {
    0 <= k && k + |r| <= |s| && s[k..k + |r|] == r && AllWhitespace(s[..k]) && AllWhitespace(s[k + |r|..])
  }

  /** `s.trim()`: the middle part of `s` left after removing white space from
      both ends; it neither starts nor ends with white space, and a string
      without surrounding white space is unchanged. */
  function Trim(s: string): (r: string)
    ensures exists k :: TrimmedAt(s, r, k)
    ensures |r| > 0 ==> !IsWhitespace(r[0]) && !IsWhitespace(r[|r| - 1])
    ensures (|s| == 0 || (!IsWhitespace(s[0]) && !IsWhitespace(s[|s| - 1]))) ==> r == s
  {
    var a := SkipLeading(s, 0);
    var b := SkipTrailing(s, a, |s|);
    assert AllWhitespace(s[..a]);
    assert AllWhitespace(s[b..]);
    assert TrimmedAt(s, s[a..b], a);
    s[a..b]
  }

  /** `s.replace(/c/g, '')`: every occurrence of `c` removed, the rest kept in order. */
  function Remove(s: string, c: char): (r: string)
    ensures c !in r
    ensures |r| == |s| - Count(s, c)
    ensures c !in s ==> r == s
    ensures |s| == 1 ==> r == (if s[0] == c then "" else s)
  {
    if |s| == 0 then ""
    else (if s[0] == c then "" else [s[0]]) + Remove(s[1..], c)
  }

  /** Removal works piece by piece: with the one-character case above, this
      fixes the result as the kept characters in their original order. */
  lemma {:induction false} RemoveAppend(a: string, b: string, c: char)
    ensures Remove(a + b, c) == Remove(a, c) + Remove(b, c)
  {
    if |a| > 0 {
      assert (a + b)[1..] == a[1..] + b;
      RemoveAppend(a[1..], b, c);
      var h := if a[0] == c then "" else [a[0]];
      Associate(h, Remove(a[1..], c), Remove(b, c), "");
    } else {
      assert a + b == b;
    }
  }

  /** The number a string of decimal digits denotes, most significant first. */
  function DigitsValue(s: string): nat
  {
    if |s| == 0 then 0
    else 10 * DigitsValue(s[..|s| - 1]) + DigitValue(s[|s| - 1])
  }

  function DigitValue(c: char): nat
  {
    if '0' <= c <= '9' then (c as int) - ('0' as int) else 0
  }

  /** Decimal digits of `n`, as JavaScript renders a non-negative integer:
      no leading zero, and the digits denote `n`. */
  function NatToString(n: nat): (r: string)
    ensures |r| > 0
    ensures forall i :: 0 <= i < |r| ==> '0' <= r[i] <= '9'
    ensures |r| > 1 ==> r[0] != '0'
    ensures DigitsValue(r) == n
  {
    var d := [(('0' as int) + n % 10) as char];
    if n < 10 then
      assert d[..0] == "";
      d
    else
      var front := NatToString(n / 10);
      assert (front + d)[..|front + d| - 1] == front;
      front + d
  }
}

=== FILE: tesla.dfy ===
/** TeslaImporter (src/importers/energy/tesla.js): Tesla energy exports, one
    row per interval with solar, home and grid energy. */
module TeslaImporter {
  import opened Wrappers
  import opened Strings
  import opened Values

  /** `detect`: some first-row key contains `Solar Energy`. */
  function Detect(rows: seq<Row>): bool
  {
    |rows| > 0 && exists k | k in rows[0].Keys :: Contains(k, "Solar Energy")
  }

  /** `getTable`. */
  function GetTable(): Option<TableName>
  {
    Some("electricity")
  }

  /** `parseFloat(row[key]) || 0`. */
  function Energy(host: Host, row: Row, key: string): Value
  {
    Num(OrNumber(Float(host, row, key), 0.0))
  }

  /** `mapRow`: `null` without a date-time; a date-time the engine cannot read
      makes `toISOString` throw; otherwise an `electricity` record keyed by the
      ISO time with the three energies, each 0 when it does not parse. */
  function MapRow(host: Host, row: Row): (r: Mapped)
    ensures r.Skip? <==> !Truthy(row, "Date time")
    ensures r.Throws? <==> Truthy(row, "Date time") && host.dateTime(row["Date time"]).None?
    ensures r.Tagged? ==>
              r == Tagged("electricity", map[
                     "time" := Text(host.isoString(host.dateTime(row["Date time"]).value)),
                     "solar" := Energy(host, row, "Solar Energy (kWh)"),
                     "consumption" := Energy(host, row, "Home (kWh)"),
                     "import" := Energy(host, row, "From Grid (kWh)")])
    ensures r.Tagged? ==> Some(r.table) == GetTable()
    ensures !r.Flat?
  {
    if !Truthy(row, "Date time") then Skip
    else
      match host.dateTime(row["Date time"])
      case None => Throws
      case Some(ms) =>
        Tagged("electricity", map[
          "time" := Text(host.isoString(ms)),
          "solar" := Energy(host, row, "Solar Energy (kWh)"),
          "consumption" := Energy(host, row, "Home (kWh)"),
          "import" := Energy(host, row, "From Grid (kWh)")])
  }

  /** `detect` reads only the first record's column names: later records and
      cell values never change its answer, and an empty file is never detected. */
  lemma DetectReadsHeader(rows: seq<Row>, other: seq<Row>)
    requires |rows| > 0 && |other| > 0 && rows[0].Keys == other[0].Keys
    ensures Detect(rows) == Detect(other)
    ensures !Detect([])
  {
  }

  /** Every record names the table `getTable` reports, `electricity`. */
  lemma RecordsGoToGetTable(host: Host, row: Row)
    ensures GetTable() == Some("electricity")
    ensures MapRow(host, row).Tagged? ==> MapRow(host, row).table == GetTable().value
  {
  }
}

=== FILE: values.dfy ===
/** The JavaScript values the mappers produce and the host primitives they
    call. Parsing dates and numbers is done by the JavaScript engine; the model
    receives those primitives as a `Host` record of total functions and makes no
    assumption about them. */
module Values {
  import opened Wrappers
  import opened Strings

  /** A field value of a mapped record. `Undefined` is also what a missing key reads as. */
  datatype Value = Undefined | Null | NaN | Num(n: real) | Text(s: string)

  /** The `data` object of a mapped record. */
  type Fields = map<string, Value>

  /** Table names the mappers emit are non-empty string literals. */
  type TableName = s: string | s != "" witness "steps"

  /** What `mapRow` returns: `null`, a thrown exception, `{table, data}`, or a
      flat object to be stored in the importer's fixed table. */
  datatype Mapped = Skip | Throws | Tagged(table: TableName, data: Fields) | Flat(data: Fields)

  /** The engine primitives the mappers call. `None` stands for `NaN` (or an
      Invalid Date), and for a `JSON.parse` that throws. */
  datatype Host = Host(
    dateTime: string -> Option<int>,    // new Date(s).getTime()
    isoString: int -> string,           // new Date(ms).toISOString()
    parseFloat: string -> Option<real>, // parseFloat(s)
    parseInt: string -> Option<int>,    // parseInt(s, 10)
    jsonSteps: string -> Option<real>,  // JSON.parse(s).steps || 0, as a number
    toFixed2: real -> real              // parseFloat(x.toFixed(2))
  )

  /** `row[key]`, with `None` for a missing key (`undefined`). */
  function Cell(row: Row, key: string): Option<string>
  {
    if key in row then Some(row[key]) else None
  }

  /** `row[key]` is truthy: present and not the empty string. */
  predicate Truthy(row: Row, key: string)
  {
    key in row && row[key] != ""
  }

  /** `a || b` on two looked-up cells. */
  function Or(a: Option<string>, b: Option<string>): (r: Option<string>)
    ensures r == a || r == b
    ensures (a.Some? && a.value != "") ==> r == a
    ensures !(a.Some? && a.value != "") ==> r == b
  {
    if a.Some? && a.value != "" then a else b
  }

  /** `row[key]` as a field value: a missing key is copied as `undefined`. */
  function CellValue(row: Row, key: string): Value
  {
    if key in row then Text(row[key]) else Undefined
  }

  /** `data[key]` of a mapped record. */
  function Field(data: Fields, key: string): Value
  {
    if key in data then data[key] else Undefined
  }

  /** `new Date(s).getTime()`; `new Date(undefined)` is an Invalid Date. */
  function Time(host: Host, s: Option<string>): Value
  {
    match s
    case None => NaN
    case Some(text) =>
      match host.dateTime(text)
      case None => NaN
      case Some(ms) => Num(ms as real)
  }

  /** `parseFloat(row[key])`; `parseFloat(undefined)` is `NaN`. */
  function Float(host: Host, row: Row, key: string): Option<real>
  {
    if key in row then host.parseFloat(row[key]) else None
  }

  /** A number or `NaN` as a field value. */
  function NumberValue(x: Option<real>): Value
  {
    match x
    case None => NaN
    case Some(v) => Num(v)
  }

  /** An integer or `NaN` as a field value. */
  function IntValue(x: Option<int>): Value
  {
    match x
    case None => NaN
    case Some(v) => Num(v as real)
  }

  /** `x || fallback` on a number: `NaN` and zero are falsy. */
  function OrNumber(x: Option<real>, fallback: real): (r: real)
    ensures (x.Some? && x.value != 0.0) ==> r == x.value
    ensures (x.None? || x.value == 0.0) ==> r == fallback
  {
    if x.Some? && x.value != 0.0 then x.value else fallback
  }
}

=== FILE: withings.dfy ===
/** WithingsImporter (src/importers/health/withings.js): one mapper for six
    Withings export files, told apart by their columns. */
module WithingsImporter {
  import opened Wrappers
  import opened Strings
  import opened Values

  /** The tables the mapper can target. */
  const Tables: set<string> := {"steps", "blood_pressure", "height", "weight", "sleep", "body_temperature"}

  const TemperatureColumn := "value (\U{00B0}C)"

  // The six branch tests of `mapRow`, in the order it tries them.
  predicate IsActivity(row: Row) { "Activity type" in row && "Data" in row }
  predicate IsBloodPressure(row: Row) { "Systolic" in row && "Diastolic" in row && Truthy(row, "Systolic") && Truthy(row, "Diastolic") }
  predicate IsHeight(row: Row) { Truthy(row, "Height (m)") }
  predicate IsWeight(row: Row) { Truthy(row, "Weight (kg)") }
  predicate IsSleep(row: Row) { "light (s)" in row && "deep (s)" in row }
  predicate IsTemperature(row: Row) { Truthy(row, TemperatureColumn) }

  /** `detect`: false on no rows; otherwise true iff the first row's keys carry
      one of the six fingerprints. */
  function Detect(rows: seq<Row>): bool
  {
    if |rows| == 0 then false
    else
      var first := rows[0];
      || ("Activity type" in first && "Data" in first)
      || ("Systolic" in first && "Diastolic" in first)
      || "Height (m)" in first
      || "Weight (kg)" in first
      || ("light (s)" in first && "deep (s)" in first)
      || TemperatureColumn in first
  }

  /** `getTable`: the table is chosen per row. */
  function GetTable(): Option<TableName>
  {
    None
  }

  /** `parseInt(row[key] || 0, 10)`: a missing or empty cell reads as 0. */
  function SecondsOrZero(host: Host, row: Row, key: string): Option<int>
  {
    if Truthy(row, key) then host.parseInt(row[key]) else Some(0)
  }

  /** light + deep + rem seconds, `NaN` (None) when one of them does not parse. */
  function SleepSeconds(host: Host, row: Row): Option<int>
  {
    var light := SecondsOrZero(host, row, "light (s)");
    var deep := SecondsOrZero(host, row, "deep (s)");
    var rem := SecondsOrZero(host, row, "rem (s)");
    if light.Some? && deep.Some? && rem.Some? then Some(light.value + deep.value + rem.value) else None
  }

  /** `mapRow`: the first branch whose column test passes decides the table; the
      activity and sleep branches can still decline the row. */
  function MapRow(host: Host, row: Row): (r: Mapped)
    ensures r.Skip? || r.Tagged?
    ensures r.Tagged? ==> r.table in Tables && "timestamp" in r.data
    // 1. activity: needs valid JSON with a positive step count
    ensures IsActivity(row) ==>
              (r.Tagged? <==> (var steps := host.jsonSteps(row["Data"]); steps.Some? && steps.value > 0.0))
              && (r.Tagged? ==> r.table == "steps"
                                && r.data == map["timestamp" := Time(host, Cell(row, "from")),
                                                 "count" := Num(host.jsonSteps(row["Data"]).value.Floor as real)])
    // 2. blood pressure: heart rate is null when its cell is empty
    ensures !IsActivity(row) && IsBloodPressure(row) ==>
              r == Tagged("blood_pressure", map[
                     "timestamp" := Time(host, Cell(row, "Date")),
                     "systolic_mmhg" := IntValue(host.parseInt(row["Systolic"])),
                     "diastolic_mmhg" := IntValue(host.parseInt(row["Diastolic"])),
                     "heart_rate_bpm" := if Truthy(row, "Heart rate") then IntValue(host.parseInt(row["Heart rate"])) else Null])
    // 3. height and 4. weight: only a non-empty value cell makes a record
    ensures !IsActivity(row) && !IsBloodPressure(row) && IsHeight(row) ==>
              r == Tagged("height", map["timestamp" := Time(host, Cell(row, "Date")),
                                        "height_m" := NumberValue(host.parseFloat(row["Height (m)"]))])
    ensures !IsActivity(row) && !IsBloodPressure(row) && !IsHeight(row) && IsWeight(row) ==>
              r == Tagged("weight", map["timestamp" := Time(host, Cell(row, "Date")),
                                        "weight_kg" := NumberValue(host.parseFloat(row["Weight (kg)"]))])
    // 5. sleep: light + deep + rem (awake not counted), stamped with `to`
    ensures !IsActivity(row) && !IsBloodPressure(row) && !IsHeight(row) && !IsWeight(row) && IsSleep(row) ==>
              (r.Tagged? <==> (SleepSeconds(host, row).Some? && SleepSeconds(host, row).value > 0))
              && (r.Tagged? ==> r == Tagged("sleep", map["timestamp" := Time(host, Cell(row, "to")),
                                                        "duration_hours" := Num(host.toFixed2(SleepSeconds(host, row).value as real / 3600.0))]))
    // 6. temperature reads the lower-case `date` column
    ensures !IsActivity(row) && !IsBloodPressure(row) && !IsHeight(row) && !IsWeight(row) && !IsSleep(row) ==>
              (r.Tagged? <==> IsTemperature(row))
              && (r.Tagged? ==> r == Tagged("body_temperature", map["timestamp" := Time(host, Cell(row, "date")),
                                                                   "temperature_c" := NumberValue(host.parseFloat(row[TemperatureColumn]))]))
  {
    if IsActivity(row) then
      match host.jsonSteps(row["Data"])
      case None => Skip
      case Some(steps) =>
        if steps > 0.0 then
          Tagged("steps", map["timestamp" := Time(host, Cell(row, "from")), "count" := Num(steps.Floor as real)])
        else Skip
    else if IsBloodPressure(row) then
      Tagged("blood_pressure", map[
        "timestamp" := Time(host, Cell(row, "Date")),
        "systolic_mmhg" := IntValue(host.parseInt(row["Systolic"])),
        "diastolic_mmhg" := IntValue(host.parseInt(row["Diastolic"])),
        "heart_rate_bpm" := if Truthy(row, "Heart rate") then IntValue(host.parseInt(row["Heart rate"])) else Null])
    else if IsHeight(row) then
      Tagged("height", map["timestamp" := Time(host, Cell(row, "Date")),
                           "height_m" := NumberValue(host.parseFloat(row["Height (m)"]))])
    else if IsWeight(row) then
      Tagged("weight", map["timestamp" := Time(host, Cell(row, "Date")),
                           "weight_kg" := NumberValue(host.parseFloat(row["Weight (kg)"]))])
    else if IsSleep(row) then
      match SleepSeconds(host, row)
      case Some(total) =>
        if total > 0 then
          Tagged("sleep", map["timestamp" := Time(host, Cell(row, "to")),
                              "duration_hours" := Num(host.toFixed2(total as real / 3600.0))])
        else Skip
      case None => Skip
    else if IsTemperature(row) then
      Tagged("body_temperature", map["timestamp" := Time(host, Cell(row, "date")),
                                     "temperature_c" := NumberValue(host.parseFloat(row[TemperatureColumn]))])
    else Skip
  }

  /** Every row `mapRow` turns into a record carries one of the fingerprints
      `detect` looks for, so a file whose first row maps is detected. */
  lemma MappedFirstRowIsDetected(host: Host, rows: seq<Row>)
    requires |rows| > 0 && !MapRow(host, rows[0]).Skip?
    ensures Detect(rows)
  {
  }

  /** `detect` reads only the first record's column names: later records and
      cell values never change its answer, and an empty file is never detected. */
  lemma DetectReadsHeader(rows: seq<Row>, other: seq<Row>)
    requires |rows| > 0 && |other| > 0 && rows[0].Keys == other[0].Keys
    ensures Detect(rows) == Detect(other)
    ensures !Detect([])
  {
  }

  /** `getTable` is null and never consulted: every record names its own table. */
  lemma RecordsNameTheirTable(host: Host, row: Row)
    ensures GetTable().None? && !MapRow(host, row).Flat?
  {
  }
}

=== FILE: wrappers.dfy ===
/** The optional-value datatype used wherever the importers see `undefined`,
    `NaN` or `null` come back from a lookup or a host primitive. */
module Wrappers {

  datatype Option<+T> = None | Some(value: T)
}
